=== FILE: README.md ===
# NETCONF transport framing (go-netconf `netconf/transport.go`)

A Dafny model of the framing layer of `TransportBasicIO` in
`netconf/transport.go`. It covers:

- `SetVersion`, which selects the framing;
- `Send`, which frames an outgoing message;
- `Receive`, which scans incoming reads for the version's separator
  through `WaitForBytes` and the read loop `WaitForFunc`;
- `parseChuncks`, which reassembles the chunks of a "v1.1" frame in place.

The version string selects one of two framings:

- **end-of-message framing** (any version other than "v1.1", section 4.3 of
  RFC 6242): the message is followed by `]]>]]>`;
- **chunked framing** ("v1.1", section 4.2 of RFC 6242): the message is one
  chunk `\n#<len>\n<data>`, followed by the end-of-chunks marker `\n##\n`.

Modules:

- `Bytes`:
  - the byte type;
  - `bytes.Index` as the function `Index`, with the facts on how it behaves
    on prefixes and extensions;
  - `fmt.Sprintf("%d")` as `Decimal` and `strconv.Atoi` as `Atoi`, with the
    proof that one reads back what the other prints.
- `Chunks`:
  - `parseChuncks` as a functional reference `DecodeFrom`;
  - the in-place loop `ParseChunks`, proved to agree with it.

  The decoder takes a flag `strict`: false is the bounds check as written,
  true is the corrected one (see Findings).
- `ChunkLemmas`: the decoder's stopping rules, its error exits, worked
  frames, and the off-by-one finding.
- `Framing`:
  - the version test `IsChunked` (the `t.version == "v1.1"` of lines 67, 73,
    88 and 147), the separators, and `Encode`, the byte string `Send` writes;
  - that a "v1.1" message decodes back to its data;
  - exactly when the first separator in a sent message is the appended one.
- `Scanner`:
  - the read loop as the recursive function `Scan` over a list of read
    results;
  - the loop method `WaitForFunc`, proved equal to `Scan`;
  - `WaitForBytes`;
  - the corrected loop `ScanAll`.
- `ChunkWalk`: a corrected matcher for "v1.1" that walks the chunk headers
  instead of searching for `\n##\n`.
- `Transport`:
  - `SetVersion`, `Send` and `Receive`;
  - the round-trip theorems, as written and corrected;
  - the counterexamples.

How the model stands in for the program:

- **Reads.** The connection's reads are a list of `ReadResult`s. Each one
  is `Data(bytes)`, `Eof`, or `ReadFailure(cause)`. A `Data` read brings
  at most 4096 bytes, half of the 8192-byte buffer.
- **Running out of reads.** A list that runs out without an end of stream
  gives `Blocked`: the real `Read` would wait.
- **The matcher.** The matcher is a function `seq<byte> -> MatchOutcome`.
- **Go panics.** A panic is an error value. A chunk with a negative size,
  or one that reaches past the buffer, gives `ChunkError.OutOfRange`.
- **A read with both bytes and an error.** `io.Reader` may return n > 0
  together with an error. The loop checks `err` first (lines 132-138) and
  discards the bytes, so such a read is modelled as its error alone. A
  reader that hands over a message's last bytes together with `io.EOF`
  therefore loses the message.
- **Matcher overrun.** A match whose frame reaches past the bytes the
  matcher was shown is reported as `MatcherOverrun`. Under "v1.1" the frame
  runs four bytes past the match. `bytes.Index` never overruns when the
  framing is not chunked, or when its separator is at least four bytes
  long, as both of `Receive`'s are (`Scanner.IndexNeverOverruns`). A shorter
  separator under "v1.1" can overrun (`Scanner.ShortSeparatorOverrun`).

Where the code departs from what the framing evidently intends, the model
follows the code:

- **What the matcher sees.** The matcher should see every byte not yet
  returned. The code shows it `buf[0:pos+n]` (line 141), which holds only
  the previous read and the current one. A frame split over three reads can
  be cut. A frame fed one byte at a time is never found
  (`Scanner.OneByteReadsFail`).
- **Chunk bounds.** Section 4.2 of RFC 6242 makes a chunk exactly
  chunk-size octets of chunk-data inside the message. The check at line 236
  accepts a chunk whose last byte is at index `end`, one past the frame.
- **A terminator inside a payload.** Section 4.2 of RFC 6242 lets
  chunk-data hold any octets, `\n##\n` included. `Receive` searches the
  raw stream for `\n##\n` (lines 88-93 and 172), so a payload that holds
  it cuts the message short.

All three are modelled as written and listed under Findings, each with a
corrected definition.

## Model

| member | source | states |
|---|---|---|
| Bytes.Index | netconf/transport.go:172 | `bytes.Index`: -1 exactly when the pattern does not occur, otherwise an occurrence before which there is none |
| Bytes.IndexOfExtension | netconf/transport.go:172 | once a match is found, showing the matcher more bytes after it does not change the answer |
| Bytes.IndexOfPrefix | netconf/transport.go:172 | a prefix that ends before the first occurrence is complete holds no match |
| Bytes.Decimal | netconf/transport.go:74 | `%d` of a length prints at least one byte, every one a decimal digit, with no leading zero except for the length 0 itself |
| Bytes.AtoiDecimal | netconf/transport.go:74 | the length header `%d` prints is read back by `strconv.Atoi` (line 230) as the same number |
| Bytes.ParseDigitsAccepts | netconf/transport.go:230 | the digit loop of `strconv.Atoi` succeeds if and only if every byte is a decimal digit, and never decreases its accumulator |
| Bytes.AtoiAccepts | netconf/transport.go:230 | `strconv.Atoi` accepts a header if and only if it is an optional `+` or `-` followed by at least one digit; a negative value needs the `-` |
| Chunks.HeaderEnd | netconf/transport.go:220-226 | the header scan stops at the first newline at or after `i+2`, or at `end` when there is none |
| Chunks.ScanHeader | netconf/transport.go:220-226 | the inner loop computes that header end |
| Chunks.PastEnd | netconf/transport.go:236 | the bounds check: as written it rejects exactly a last index past `end`, and the strict form also rejects one at `end`; a chunk that passes has its last index at most `end` |
| Chunks.DecodeFrom | netconf/transport.go:211-243 | a length bound: the decoded payload is empty or no longer than `end` minus the scan position |
| Chunks.DecodeChunk | netconf/transport.go:220-233 | a length bound: the payload decoded from a `\n#` marker at `i` is empty or no longer than `end - i` |
| Chunks.DecodeBody | netconf/transport.go:234-240 | a length bound: the payload decoded from the header's newline at `j` is no longer than `end - j` |
| Chunks.BodyTaken | netconf/transport.go:234-240 | a body that passes the bounds check as written is the `size` bytes after the newline, followed by whatever decodes after them, with that error |
| Chunks.CopyDown | netconf/transport.go:239 | `copy(buf[length:], buf[start:end+1])` puts the chunk at `length` and leaves every byte from `length+size` on untouched |
| Chunks.DecodeAgrees | netconf/transport.go:211-243 | decoding reads nothing before the scan position and nothing out of reach: buffers that agree there decode alike |
| Chunks.CopyKeepsDecoding | netconf/transport.go:239-240 | after one chunk is copied down, the compacted prefix plus what is still to decode equals the payload decoded before the copy |
| Chunks.MoveBody | netconf/transport.go:239 | the copy of one chunk body grows the decoded prefix by exactly that body, and the rest decodes as before |
| Chunks.TakeBody | netconf/transport.go:234-240 | the bounds check gives `ErrMalformedChunk`, a bad size gives a panic; otherwise the body is copied and scanning resumes past it |
| Chunks.TakeChunk | netconf/transport.go:220-240 | one pass at a `\n#` marker either ends the frame (terminator, Atoi error, bounds) with the reference's result, or keeps the loop invariant |
| Chunks.ParseChunks | netconf/transport.go:211-243 | the in-place loop leaves the whole payload compacted at the front; it returns its length and the error, exactly as the reference decodes them |
| ChunkLemmas.NoMarkerDecodesEmpty | netconf/transport.go:214-218 | bytes that do not start a `\n#` marker are skipped; a frame without markers decodes to nothing, without error |
| ChunkLemmas.TerminatorStops | netconf/transport.go:227-229 | a header whose last byte is `#` ends decoding successfully with nothing more |
| ChunkLemmas.EmptyHeaderIsTerminator | netconf/transport.go:220-229 | the empty header `\n#\n` also counts as a terminator |
| ChunkLemmas.BadHeaderStops | netconf/transport.go:230-233 | a header `strconv.Atoi` rejects stops decoding with that error |
| ChunkLemmas.OverlongChunkStops | netconf/transport.go:234-238 | a chunk running past `end` stops decoding with `ErrMalformedChunk` |
| ChunkLemmas.TwoChunksExample | netconf/transport.go:211-243 | `\n#3\nabc\n#2\nde\n##\n` decodes to `abcde` |
| ChunkLemmas.NonNumericHeaderExample | netconf/transport.go:230-233 | `\n#x\n...` fails on the header `x` |
| ChunkLemmas.OverlongChunkExample | netconf/transport.go:234-238 | a chunk declaring 100 bytes with 3 present is malformed |
| ChunkLemmas.ChunkEndingAtEndAccepted | netconf/transport.go:236 | as written, two buffers with the same frame decode differently, and a buffer ending at the frame panics |
| ChunkLemmas.StrictDecodeStaysInFrame | netconf/transport.go:236 | with `endChunk >= end`, decoding depends on the frame `buf[:end]` only |
| ChunkLemmas.StrictRejectsChunkPastFrame | netconf/transport.go:236 | the strict check rejects the counterexample's chunk as malformed |
| Framing.Separator | netconf/transport.go:21-25 | the "v1.1" separator is the bytes of `\n##\n`, and every other version's is the bytes of `]]>]]>` |
| Framing.EncodeFrames | netconf/transport.go:63-84 | the bytes `Send` writes end with the version's separator and are as long as the data and the separator, plus for "v1.1" the digits of the length and three bytes |
| Framing.ChunkedShape | netconf/transport.go:73-80 | a "v1.1" message is `\n#`, a header Atoi reads as the data length, `\n`, the data, `\n##\n` |
| Framing.EndOfMessageShape | netconf/transport.go:79-80 | any other version writes the data followed by `]]>]]>` |
| Framing.DecodeEncoded | netconf/transport.go:73-80 | `parseChuncks` over a sent "v1.1" message, whatever follows it, returns the data with no error |
| Framing.SeparatorSelfOverlap | netconf/transport.go:23 | `]]>]]>` overlaps itself only at shift 3 |
| Framing.SeparatorFoundAtEnd | netconf/transport.go:79-80 | in data followed by `]]>]]>`, the first `]]>]]>` is the appended one if and only if the data contains none and does not end in `]]>` |
| Framing.TerminatorFoundAtEnd | netconf/transport.go:73-80 | in a sent "v1.1" message the first `\n##\n` is the appended one if and only if `\n`, the data and `\n##` hold none |
| Scanner.Start | netconf/transport.go:127-130 | the loop starts with an empty `out`, nothing held, and `pos` 0 |
| Scanner.Fill | netconf/transport.go:132 | a read writes its bytes at `pos` and leaves the rest of the buffer as it was |
| Scanner.Advance | netconf/transport.go:158-163 | on no match, `out.Write(buf[0:pos])` and the `copy` lose and reorder nothing: the bytes held grow by the read |
| Scanner.Deliver | netconf/transport.go:146-155 | a match returns `out` followed by the frame; without chunking the frame is a prefix of the bytes shown; chunk errors arise only for "v1.1" |
| Scanner.Scan | netconf/transport.go:126-168 | the loop blocks only on a list of data reads; it gives the "WaitForFunc failed" error only after `io.EOF`; it returns a read error only when the connection gave it |
| Scanner.WaitForFunc | netconf/transport.go:126-168 | the loop method computes the reference `Scan` |
| Scanner.StopsAtFirstError | netconf/transport.go:132-138 | after data reads only, the first `io.EOF` ends the loop with "WaitForFunc failed" and the first other read error is returned, unless those data reads already ended the loop; no later read is looked at |
| Scanner.Finish | netconf/transport.go:146-155 | the match branch, with `parseChuncks` in place, computes `Deliver` |
| Scanner.IndexMatcherAnswers | netconf/transport.go:171-173 | the `bytes.Index` matcher never fails; it waits if and only if the separator does not occur, and otherwise answers its first occurrence |
| Scanner.WaitForBytes | netconf/transport.go:170-174 | `WaitForBytes` is the loop with the `bytes.Index` matcher; it never overruns when the framing is not chunked or the separator is at least four bytes long |
| Scanner.IndexNeverOverruns | netconf/transport.go:170-174 | a `bytes.Index` match lies inside the bytes shown, including the separator, so the loop never overruns when the framing is not chunked or the separator is at least four bytes long |
| Scanner.ShortSeparatorOverrun | netconf/transport.go:146-149 | under "v1.1" with the one-byte separator `x`, the read `x` is reported as an overrun, while `parseChuncks` over the fresh buffer it lands in decodes to an empty frame without error |
| Scanner.DropEmpty | netconf/transport.go:140 | dropping zero-byte reads keeps the read size bound, leaves no empty read, keeps every byte delivered in order, and adds no read that was not there |
| Scanner.EmptyReadsIrrelevant | netconf/transport.go:140 | a read of zero bytes changes nothing (`if n > 0`) |
| Scanner.FrameIsPrefix | netconf/transport.go:154-163 | without chunking, the frame returned is a prefix of all bytes received |
| Scanner.SeparatorFollowsFrame | netconf/transport.go:170-174 | without chunking, the frame is followed in the stream by the separator |
| Scanner.ShortReadsNeverMatch | netconf/transport.go:141 | with reads of at most one byte, a separator of three or more bytes is never found |
| Scanner.OneByteReads | netconf/transport.go:132 | one read per byte, then end of stream |
| Scanner.OneByteReadsFail | netconf/transport.go:141 | any stream delivered byte by byte and closed ends in the "WaitForFunc failed" error |
| Scanner.ScanAll | netconf/transport.go:126-168 | the corrected loop: blocks only on data reads, fails on end of stream only after `io.EOF`, reports chunk errors only for "v1.1" |
| Scanner.ScanAllFrameIsPrefix | netconf/transport.go:154-155 | without chunking, the corrected loop's frame is a prefix of everything received |
| Transport.SetVersion | netconf/transport.go:57-59 | after `SetVersion(v)`, `\n##\n` is the separator exactly when `v` is "v1.1", and every message sent ends with it |
| Transport.Send | netconf/transport.go:63-84 | the buffer written is, for "v1.1", the header `\n#<len>\n` (`\n#`, digits Atoi reads as the length, `\n`), then the data and the version's separator |
| Transport.Receive | netconf/transport.go:86-94 | `Receive` scans for the version's separator and never reports an overrun |
| Transport.DelimitedFoundAtEnd | netconf/transport.go:67-80 | under either framing, the first separator in a sent message is the appended one if and only if the data is `Delimited`: it cannot fake the separator |
| Transport.DeliverEncoded | netconf/transport.go:146-155 | a match at the end of a whole sent message delivers the data, with either bounds check |
| Transport.CompletedInRead | netconf/transport.go:132-155 | a message completed by the current read, with nothing yet in `out`, is returned as sent |
| Transport.ReadCompletesMessage | netconf/transport.go:141 | after that read, the bytes shown start with the message and the matcher finds its separator |
| Transport.MatchAtEnd | netconf/transport.go:172 | shown a whole sent message, `bytes.Index` answers the appended separator |
| Transport.NoMatchBeforeEnd | netconf/transport.go:172 | shown a proper prefix of a sent message, `bytes.Index` finds nothing |
| Transport.ReceiveOneRead | netconf/transport.go:86-94 | a `Delimited` message sent and read in one read of at most 4096 bytes, with anything after it, is received as sent |
| Transport.ReceiveTwoReads | netconf/transport.go:86-94 | a `Delimited` message that arrives in two reads is received as sent |
| Transport.SearchFinds | netconf/transport.go:141 | shown bytes that start with a whole sent message, the search answers the appended separator: `bytes.Index` for a `Delimited` message, the chunk walk for any "v1.1" message |
| Transport.SearchWaits | netconf/transport.go:141 | shown a proper prefix of such a message, the search waits |
| Transport.ReadCompletes | netconf/transport.go:146-155 | a read that completes such a message makes the corrected loop return its data |
| Transport.ScanAllDelivers | netconf/transport.go:126-168 | the corrected loop returns such a message however the reads split it: a `Delimited` one with `bytes.Index`, any "v1.1" one with the chunk walk |
| Transport.ReceiveAllRoundTrip | netconf/transport.go:86-94 | with the corrected loop, `Receive` returns what `Send` wrote for a `Delimited` message, for any split into reads |
| ChunkWalk.Walk | netconf/transport.go:172 | the corrected "v1.1" matcher: an answer it finds is a `\n##\n` at or after the chunk boundary it starts from |
| ChunkWalk.WalkFindsTerminator | netconf/transport.go:172 | shown anything that starts with a whole sent "v1.1" message, the walk answers that message's own terminator, whatever the payload holds |
| ChunkWalk.WalkWaitsOnPrefix | netconf/transport.go:172 | shown a proper prefix of a sent "v1.1" message, the walk waits |
| Transport.ReceiveChunkedRoundTrip | netconf/transport.go:86-94 | with the corrected loop and the chunk walk, every "v1.1" message, whatever its payload, is received as sent for any split into reads |
| Transport.TwoReadsNoMatch | netconf/transport.go:140-163 | in that example the first two reads bring no match, so `out` takes the first read |
| Transport.ThirdReadAlone | netconf/transport.go:146-155 | the third read is matched without the first, and only `out` is returned |
| Transport.ThreeReadsLoseChunk | netconf/transport.go:141 | as written, `Receive` returns the chunk header and loses `bc`, while the corrected loop returns `abc` |
| Transport.EmbeddedTerminatorCutsFrame | netconf/transport.go:88-93 | as written, the "v1.1" message with payload `\n##\nab`, arriving in one read, fails as a malformed chunk; the corrected loop with `bytes.Index` fails too; with the chunk walk it returns the payload |
| Transport.OneByteReadsMissMessage | netconf/transport.go:141 | as written, a message delivered byte by byte ends in the "WaitForFunc failed" error, while the corrected loop returns it |

## Left out

- `SendHello`, `ReceiveHello` and `HelloMessage`: XML marshalling of the capability exchange, which is a foreign library.
- `WaitForString`, `WaitForRegexp`, `Writeln`, `ReadWriteCloser`, `NewReadWriteCloser` and `Close`: thin wrappers, or uses of a regular-expression engine that is not modelled.
- The connection itself: reads are an input list and writes are the returned byte string. A write error is not modelled, so `Send` returns the bytes and not the `error`.
- Go's `nil` versus empty slices, and the distinction between `out.Bytes()` and a copy, are not modelled.
- A matcher that answers an index past the bytes it was shown makes Go slice past `pos+n`, or past the buffer. The model reports `MatcherOverrun` instead. `bytes.Index` does not do this, except as the next line says.
- Scanner.Deliver: under chunking, a match within four bytes of the end of the bytes shown is reported as `MatcherOverrun`. The source instead runs `parseChuncks(buf, end+4)` over the whole 8192-byte buffer, so it decodes the stale bytes after the read (`Scanner.ShortSeparatorOverrun`). This happens only when `WaitForBytes` or `WaitForString` is called under "v1.1" with a separator shorter than `\n##\n`; `Receive` always passes a separator of at least four bytes.
- Bytes.Atoi: models `strconv.Atoi` on byte strings with unbounded integers, and `parseChuncks`'s sums without 64-bit wrap-around. Three headers behave differently in Go:
  - a header above 9223372036854775807 is a range error from `strconv.Atoi` in Go, but here it reads as a large size, which the bounds check at line 236 rejects as `ErrMalformedChunk`;
  - a header such as 9223372036854775807 is accepted by Go, but `startChunk + chunkSize - 1` wraps negative, so the check at line 236 passes and the slice at line 239 panics; here the check rejects it as `ErrMalformedChunk`;
  - a header below -9223372036854775808 is a range error from `strconv.Atoi` in Go, but here it reads as a negative size, which gives `OutOfRange` (a panic).
- Chunks.DecodeFrom: states only the size of the payload. What it decodes is pinned down by the stopping-rule lemmas in `ChunkLemmas`, by `Framing.DecodeEncoded`, and by the in-place method `ParseChunks`.
- Chunks.DecodeChunk: states only the size of the payload. Each branch is pinned down by `ChunkLemmas.TerminatorStops`, `ChunkLemmas.BadHeaderStops`, `ChunkLemmas.OverlongChunkStops` and `Chunks.TakeChunk`.
- Chunks.DecodeBody: states only the size of the payload, not that its bytes lie inside the frame. Under the bounds check as written they need not: the last one may be at index `end` (see Findings). Which bytes it takes is `Chunks.BodyTaken`.
- Back-to-back messages: every call of `WaitForFunc` starts from a fresh buffer (line 128). Bytes read after the frame are dropped: under end-of-message framing the separator itself, and under either framing anything after the message in the same read, such as the start of a second message. `Scan` returns no remaining input, so a sequence of `Receive` calls on one stream is not modelled.
- Scanner.Scan: a `Blocked` outcome stands for a `Read` that would wait forever, since the read list is finite.
- Concurrency, deadlines and timeouts: the connection imposes these, and the code has none.

## Findings

| source | as written | input that shows it | evidently intended | confidence | as-written member | corrected member |
|---|---|---|---|---|---|---|
| netconf/transport.go:236 | `if endChunk > end` admits a chunk whose last byte is at index `end`, one past the frame `buf[:end]` | frame `\n#3\nab` with `end` 6: it decodes to `abx` in the buffer `\n#3\nabx` and to `abc` in `\n#3\nabc`, and panics when the buffer is the frame itself | `endChunk >= end`: every chunk byte lies inside the frame, so decoding depends on the frame alone | not executed | ChunkLemmas.ChunkEndingAtEndAccepted | ChunkLemmas.StrictDecodeStaysInFrame |
| netconf/transport.go:88-93 | under "v1.1", `Receive` searches the raw stream for `\n##\n`, which a chunk's data may hold, and decodes the frame cut there | `Send("\n##\nab")` under "v1.1", read in one read: the frame is cut after the header `\n#6\n`, whose six bytes are missing, and `Receive` fails with `ErrMalformedChunk` | the end of a chunked message is found by walking the chunk headers (section 4.2 of RFC 6242), so every payload is received as sent | not executed | Transport.EmbeddedTerminatorCutsFrame | Transport.ReceiveChunkedRoundTrip |
| netconf/transport.go:141 | the matcher is shown `buf[0:pos+n]`, which holds only the previous read and this one; earlier reads are already in `out` | any message read one byte at a time and then closed fails with "WaitForFunc failed"; `Send("abc")` under "v1.1" read as `\n#3\na`, `b`, `c\n##\n` returns `\n#3\na` (`Transport.ThreeReadsLoseChunk`) | the matcher sees every byte not yet returned, so a frame is found however the reads split it | not executed | Transport.OneByteReadsMissMessage | Transport.ReceiveAllRoundTrip |

=== FILE: bytes.dfy ===
/** Byte sequences and the two library routines the framing code leans on:
    `bytes.Index` (first occurrence of a pattern) and the decimal conversions
    `fmt.Sprintf("%d")` / `strconv.Atoi`. */
module Bytes {

  newtype byte = b: int | 0 <= b < 256

  const LF: byte := 10
  const HASH: byte := 35
  const PLUS: byte := 43
  const MINUS: byte := 45
  const ZERO: byte := 48
  const GT: byte := 62
  const RBRACKET: byte := 93
  /** Lower-case letters for worked examples. */
  const SMALL_A: byte := 97
  const SMALL_B: byte := 98
  const SMALL_C: byte := 99
  const SMALL_D: byte := 100
  const SMALL_E: byte := 101
  const SMALL_X: byte := 120

  datatype Option<+T> = None | Some(value: T)

  predicate IsDigit(b: byte) {
    ZERO <= b <= ZERO + 9
  }

  predicate AllDigits(s: seq<byte>) {
    forall k :: 0 <= k < |s| ==> IsDigit(s[k])
  }

  /** `pat` starts at offset `k` of `s`. */
  predicate OccursAt(s: seq<byte>, pat: seq<byte>, k: int) {
    0 <= k && k + |pat| <= |s| && s[k..k + |pat|] == pat
  }

  predicate Contains(s: seq<byte>, pat: seq<byte>) {
    exists k :: 0 <= k <= |s| && OccursAt(s, pat, k)
  }

  predicate EndsWith(s: seq<byte>, suffix: seq<byte>) {
    |suffix| <= |s| && s[|s| - |suffix|..] == suffix
  }

  lemma AppendAssoc<T>(a: seq<T>, b: seq<T>, c: seq<T>)
    ensures (a + b) + c == a + (b + c)
  {
  }

  /** A prefix stays a prefix when more is appended to the longer sequence. */
  lemma PrefixOfLonger<T>(p: seq<T>, q: seq<T>, t: seq<T>)
    requires p <= q
    ensures p <= q + t
  {
    assert (q + t)[..|p|] == q[..|p|];
  }

  /** A prefix is the shorter prefix followed by the slice between them. */
  lemma PrefixSplit<T>(s: seq<T>, i: nat, j: nat)
    requires i <= j <= |s|
    ensures s[..j] == s[..i] + s[i..j]
  {
  }

  /** A slice that lies inside the middle part of a concatenation. */
  lemma SliceOfMiddle<T>(pre: seq<T>, mid: seq<T>, post: seq<T>, o: nat, n: nat)
    requires o + n <= |mid|
    ensures (pre + mid + post)[|pre| + o..|pre| + o + n] == mid[o..o + n]
  {
    var w := pre + mid + post;
    var left := w[|pre| + o..|pre| + o + n];
    var right := mid[o..o + n];
    forall k | 0 <= k < n
      ensures left[k] == right[k]
    {
      assert w[|pre| + o + k] == mid[o + k];
    }
  }

  /** First occurrence of `pat` at or after `k`, or -1. */
  function IndexFrom(s: seq<byte>, pat: seq<byte>, k: nat): (r: int)
    requires k <= |s|
    ensures r == -1 || (k <= r && OccursAt(s, pat, r))
    ensures forall m :: k <= m && (r == -1 || m < r) ==> !OccursAt(s, pat, m)
    decreases |s| - k
  {
    if k + |pat| > |s| then -1
    else if s[k..k + |pat|] == pat then k
    else IndexFrom(s, pat, k + 1)
  }

  /** `bytes.Index`: the offset of the first occurrence of `pat` in `s`, or -1. */
  function Index(s: seq<byte>, pat: seq<byte>): (r: int)
    ensures r == -1 <==> !Contains(s, pat)
    ensures r != -1 ==> OccursAt(s, pat, r) && forall m :: 0 <= m < r ==> !OccursAt(s, pat, m)
  {
    IndexFrom(s, pat, 0)
  }

  /** Two prefixes of one sequence: the shorter is a prefix of the longer. */
  lemma PrefixesAgree<T>(p: seq<T>, q: seq<T>, s: seq<T>)
    requires p <= s && q <= s && |p| <= |q|
    ensures p <= q
  {
    assert q[..|p|] == s[..|p|];
  }

  /** An occurrence inside the common prefix of two sequences is an
      occurrence in both. */
  lemma OccursInPrefix(s: seq<byte>, t: seq<byte>, pat: seq<byte>, m: nat)
    requires s <= t && m + |pat| <= |s|
    ensures OccursAt(t, pat, m) == OccursAt(s, pat, m)
  {
    assert t[m..m + |pat|] == s[m..m + |pat|];
  }

  /** Extending a sequence past its first occurrence of `pat` keeps that
      first occurrence. */
  lemma IndexOfExtension(s: seq<byte>, t: seq<byte>, pat: seq<byte>)
    requires Index(s, pat) != -1 && s <= t
    ensures Index(t, pat) == Index(s, pat)
  {
    var r := Index(s, pat);
    OccursInPrefix(s, t, pat, r);
    forall m | 0 <= m < r
      ensures !OccursAt(t, pat, m)
    {
      OccursInPrefix(s, t, pat, m);
    }
    assert Contains(t, pat);
  }

  /** A prefix that stops before the end of the first occurrence of `pat`
      holds no occurrence. */
  lemma IndexOfPrefix(s: seq<byte>, t: seq<byte>, pat: seq<byte>)
    requires Index(s, pat) != -1 && t <= s && |t| < Index(s, pat) + |pat|
    ensures Index(t, pat) == -1
  {
    var r := Index(s, pat);
    forall m | 0 <= m <= |t|
      ensures !OccursAt(t, pat, m)
    {
      if m + |pat| <= |t| {
        OccursInPrefix(t, s, pat, m);
      }
    }
  }

  /** Digits read left to right onto the accumulator `acc`; None at the first
      byte that is not a decimal digit. */
  function ParseDigits(s: seq<byte>, acc: nat): Option<nat> {
    if |s| == 0 then Some(acc)
    else if IsDigit(s[0]) then ParseDigits(s[1..], acc * 10 + (s[0] - ZERO) as int)
    else None
  }

  /** `strconv.Atoi`: an optional sign followed by at least one decimal digit.
      None stands for the error Atoi returns on anything else. */
  function Atoi(s: seq<byte>): Option<int> {
    if |s| > 0 && (s[0] == PLUS || s[0] == MINUS) then
      if |s| == 1 then None
      else
        match ParseDigits(s[1..], 0)
        case None => None
        case Some(v) =>
          var signed: int := if s[0] == MINUS then 0 - v else v;
          Some(signed)
    else if |s| == 0 then None
    else
      match ParseDigits(s, 0)
      case None => None
      case Some(v) => Some(v)
  }

  /** The digit loop succeeds exactly on a run of decimal digits, and never
      lowers the accumulator. */
  lemma {:induction false} ParseDigitsAccepts(s: seq<byte>, acc: nat)
    ensures ParseDigits(s, acc).Some? <==> AllDigits(s)
    ensures ParseDigits(s, acc).Some? ==> acc <= ParseDigits(s, acc).value
    decreases |s|
  {
    if |s| > 0 && IsDigit(s[0]) {
      ParseDigitsAccepts(s[1..], acc * 10 + (s[0] - ZERO) as int);
      assert forall k :: 1 <= k < |s| ==> s[k] == s[1..][k - 1];
    }
  }

  /** What `strconv.Atoi` accepts: an optional sign, then at least one
      decimal digit and nothing else; only a leading minus gives a negative
      value. */
  lemma AtoiAccepts(s: seq<byte>)
    ensures var digits := if |s| > 0 && (s[0] == PLUS || s[0] == MINUS) then s[1..] else s;
            Atoi(s).Some? <==> 1 <= |digits| && AllDigits(digits)
    ensures Atoi(s).Some? && Atoi(s).value < 0 ==> s[0] == MINUS
  {
    if |s| > 0 && (s[0] == PLUS || s[0] == MINUS) {
      ParseDigitsAccepts(s[1..], 0);
    } else {
      ParseDigitsAccepts(s, 0);
    }
  }

  /** `fmt.Sprintf("%d", n)` for a non-negative `n`: at least one digit, and
      nothing but digits. */
  function Decimal(n: nat): (r: seq<byte>)
    ensures 1 <= |r| && forall k :: 0 <= k < |r| ==> IsDigit(r[k])
    ensures r[0] == ZERO ==> n == 0
  {
    if n < 10 then [ZERO + n as byte]
    else Decimal(n / 10) + [ZERO + (n % 10) as byte]
  }

  /** Reading one more digit multiplies by ten and adds it. */
  lemma {:induction false} ParseDigitsSnoc(s: seq<byte>, d: byte, acc: nat)
    requires IsDigit(d)
    ensures ParseDigits(s + [d], acc)
         == match ParseDigits(s, acc)
            case None => None
            case Some(v) => Some(v * 10 + (d - ZERO) as int)
    decreases |s|
  {
    if |s| == 0 {
      assert s + [d] == [d];
    } else {
      assert (s + [d])[1..] == s[1..] + [d];
      if IsDigit(s[0]) {
        ParseDigitsSnoc(s[1..], d, acc * 10 + (s[0] - ZERO) as int);
      }
    }
  }

  /** The digits `%d` prints read back as the number. */
  lemma {:induction false} ParseDecimal(n: nat)
    ensures ParseDigits(Decimal(n), 0) == Some(n)
  {
    if n >= 10 {
      ParseDecimal(n / 10);
      ParseDigitsSnoc(Decimal(n / 10), ZERO + (n % 10) as byte, 0);
    }
  }

  /** Parsing what `%d` printed gives the number back. */
  lemma AtoiDecimal(n: nat)
    ensures Atoi(Decimal(n)) == Some(n)
  {
    ParseDecimal(n);
  }
}

=== FILE: chunk_lemmas.dfy ===
/** Properties of the chunk reassembler: its stopping rules, its two error
    exits, a worked frame, and the off-by-one in its bounds check. */
module ChunkLemmas {
  import opened Bytes
  import opened Chunks

  /** No `\n#` marker anywhere before `end - 1`. */
  predicate NoMarker(buf: seq<byte>, end: nat, i: nat)
    requires end <= |buf|
  {
    forall k :: i <= k && k + 1 < end ==> !(buf[k] == LF && buf[k + 1] == HASH)
  }

  /** Bytes that do not start a marker are skipped: a frame without any marker
      decodes successfully to nothing. */
  lemma {:induction false} NoMarkerDecodesEmpty(buf: seq<byte>, end: nat, i: nat, strict: bool)
    requires end <= |buf| && i <= end + 1 && NoMarker(buf, end, i)
    ensures DecodeFrom(buf, end, i, strict) == Decoded([], None)
    decreases end + 1 - i
  {
    if i + 1 < end {
      NoMarkerDecodesEmpty(buf, end, i + 1, strict);
    }
  }

  /** A marker whose header ends in `#` before its newline stops decoding
      successfully; this covers the terminator `\n##\n` and the empty header
      `\n#\n`, and a header running into `end` whose last byte is `#`. */
  lemma TerminatorStops(buf: seq<byte>, end: nat, i: nat, strict: bool)
    requires end <= |buf| && i + 1 < end && buf[i] == LF && buf[i + 1] == HASH
    requires buf[HeaderEnd(buf, end, i + 2) - 1] == HASH
    ensures DecodeFrom(buf, end, i, strict) == Decoded([], None)
  {
    assert DecodeFrom(buf, end, i, strict) == DecodeChunk(buf, end, i, strict);
  }

  /** The empty header `\n#\n` is a terminator even though it carries no
      second `#`. */
  lemma EmptyHeaderIsTerminator(buf: seq<byte>, end: nat, i: nat, strict: bool)
    requires end <= |buf| && i + 2 < end && buf[i] == LF && buf[i + 1] == HASH && buf[i + 2] == LF
    ensures DecodeFrom(buf, end, i, strict) == Decoded([], None)
  {
    assert HeaderEnd(buf, end, i + 2) == i + 2;
    TerminatorStops(buf, end, i, strict);
  }

  /** A header text that `strconv.Atoi` rejects ends decoding with that
      error, and nothing of the chunk is decoded. */
  lemma BadHeaderStops(buf: seq<byte>, end: nat, i: nat, strict: bool)
    requires end <= |buf| && i + 1 < end && buf[i] == LF && buf[i + 1] == HASH
    requires buf[HeaderEnd(buf, end, i + 2) - 1] != HASH
    requires Atoi(buf[i + 2..HeaderEnd(buf, end, i + 2)]).None?
    ensures DecodeFrom(buf, end, i, strict)
         == Decoded([], Some(BadHeader(buf[i + 2..HeaderEnd(buf, end, i + 2)])))
  {
    assert DecodeFrom(buf, end, i, strict) == DecodeChunk(buf, end, i, strict);
  }

  /** A chunk whose last index `j + size` lies past `end` is
      `ErrMalformedChunk`, and nothing of it is decoded. */
  lemma OverlongChunkStops(buf: seq<byte>, end: nat, i: nat, strict: bool)
    requires end <= |buf| && i + 1 < end && buf[i] == LF && buf[i + 1] == HASH
    requires buf[HeaderEnd(buf, end, i + 2) - 1] != HASH
    requires Atoi(buf[i + 2..HeaderEnd(buf, end, i + 2)]).Some?
    requires HeaderEnd(buf, end, i + 2) + Atoi(buf[i + 2..HeaderEnd(buf, end, i + 2)]).value > end
    ensures DecodeFrom(buf, end, i, strict) == Decoded([], Some(Malformed))
  {
    var j := HeaderEnd(buf, end, i + 2);
    assert DecodeFrom(buf, end, i, strict) == DecodeChunk(buf, end, i, strict);
    assert DecodeChunk(buf, end, i, strict) == DecodeBody(buf, end, j, Atoi(buf[i + 2..j]).value, strict);
  }

  /** `\n#3\nabc\n#2\nde\n##\n`: two chunks concatenate to `abcde`. */
  lemma TwoChunksExample()
    ensures DecodeFrom([LF, HASH, ZERO + 3, LF, SMALL_A, SMALL_B, SMALL_C, LF, HASH, ZERO + 2, LF, SMALL_D, SMALL_E, LF, HASH, HASH, LF], 17, 0, false)
         == Decoded([SMALL_A, SMALL_B, SMALL_C, SMALL_D, SMALL_E], None)
  {
    var buf: seq<byte> := [LF, HASH, ZERO + 3, LF, SMALL_A, SMALL_B, SMALL_C, LF, HASH, ZERO + 2, LF, SMALL_D, SMALL_E, LF, HASH, HASH, LF];
    assert HeaderEnd(buf, 17, 15) == 16;
    TerminatorStops(buf, 17, 13, false);
    assert HeaderEnd(buf, 17, 9) == 10;
    assert buf[9..10] == Decimal(2);
    AtoiDecimal(2);
    assert DecodeFrom(buf, 17, 7, false) == DecodeBody(buf, 17, 10, 2, false);
    assert buf[11..13] == [SMALL_D, SMALL_E];
    assert DecodeFrom(buf, 17, 7, false) == Decoded([SMALL_D, SMALL_E], None);
    assert HeaderEnd(buf, 17, 2) == 3;
    assert buf[2..3] == Decimal(3);
    AtoiDecimal(3);
    assert DecodeFrom(buf, 17, 0, false) == DecodeBody(buf, 17, 3, 3, false);
    assert buf[4..7] == [SMALL_A, SMALL_B, SMALL_C];
  }

  /** `\n#x\n`: the header is not a number. */
  lemma NonNumericHeaderExample()
    ensures DecodeFrom([LF, HASH, SMALL_X, LF, SMALL_A, LF, HASH, HASH, LF], 9, 0, false)
         == Decoded([], Some(BadHeader([SMALL_X])))
  {
    var buf: seq<byte> := [LF, HASH, SMALL_X, LF, SMALL_A, LF, HASH, HASH, LF];
    assert HeaderEnd(buf, 9, 2) == 3;
    assert buf[2..3] == [SMALL_X];
    assert ParseDigits([SMALL_X], 0) == None;
    BadHeaderStops(buf, 9, 0, false);
  }

  /** `\n#100\nabc\n##\n`: a chunk declaring 100 bytes with 3 present. */
  lemma OverlongChunkExample()
    ensures DecodeFrom([LF, HASH, ZERO + 1, ZERO, ZERO, LF, SMALL_A, SMALL_B, SMALL_C, LF, HASH, HASH, LF], 13, 0, false)
         == Decoded([], Some(Malformed))
  {
    var buf: seq<byte> := [LF, HASH, ZERO + 1, ZERO, ZERO, LF, SMALL_A, SMALL_B, SMALL_C, LF, HASH, HASH, LF];
    assert HeaderEnd(buf, 13, 2) == 5;
    assert Decimal(10) == [ZERO + 1, ZERO];
    assert buf[2..5] == Decimal(100);
    AtoiDecimal(100);
    OverlongChunkStops(buf, 13, 0, false);
  }

  /** As written (`endChunk > end`), a chunk may end on the byte at index
      `end`, which is outside the frame `buf[..end]`: two buffers with the same
      six-byte frame `\n#3\nab` decode to different payloads, and when the
      buffer stops at `end` the copy's slice runs past it, a Go panic. */
  lemma ChunkEndingAtEndAccepted()
    ensures DecodeFrom([LF, HASH, ZERO + 3, LF, SMALL_A, SMALL_B, SMALL_X], 6, 0, false) == Decoded([SMALL_A, SMALL_B, SMALL_X], None)
    ensures DecodeFrom([LF, HASH, ZERO + 3, LF, SMALL_A, SMALL_B, SMALL_C], 6, 0, false) == Decoded([SMALL_A, SMALL_B, SMALL_C], None)
    ensures DecodeFrom([LF, HASH, ZERO + 3, LF, SMALL_A, SMALL_B], 6, 0, false) == Decoded([], Some(OutOfRange))
  {
    var frame: seq<byte> := [LF, HASH, ZERO + 3, LF, SMALL_A, SMALL_B];
    assert frame[2..3] == Decimal(3);
    AtoiDecimal(3);
    var bx: seq<byte> := [LF, HASH, ZERO + 3, LF, SMALL_A, SMALL_B, SMALL_X];
    var bc: seq<byte> := [LF, HASH, ZERO + 3, LF, SMALL_A, SMALL_B, SMALL_C];
    assert HeaderEnd(bx, 6, 2) == 3 && HeaderEnd(bc, 6, 2) == 3 && HeaderEnd(frame, 6, 2) == 3;
    assert bx[2..3] == bc[2..3] == frame[2..3];
    assert DecodeFrom(bx, 6, 0, false) == DecodeBody(bx, 6, 3, 3, false);
    assert DecodeFrom(bc, 6, 0, false) == DecodeBody(bc, 6, 3, 3, false);
    assert DecodeFrom(frame, 6, 0, false) == DecodeBody(frame, 6, 3, 3, false);
    assert DecodeFrom(bx, 6, 7, false) == DecodeFrom(bc, 6, 7, false) == Decoded([], None);
    assert bx[4..7] == [SMALL_A, SMALL_B, SMALL_X] && bc[4..7] == [SMALL_A, SMALL_B, SMALL_C];
    assert DecodeBody(bx, 6, 3, 3, false) == Decoded([SMALL_A, SMALL_B, SMALL_X], None);
    assert DecodeBody(bc, 6, 3, 3, false) == Decoded([SMALL_A, SMALL_B, SMALL_C], None);
  }

  /** With the strict check (`endChunk >= end`) decoding never looks past the
      frame: buffers that agree on `buf[..end]` decode alike. */
  lemma {:induction false} StrictDecodeStaysInFrame(p: seq<byte>, q: seq<byte>, end: nat)
    requires end <= |p| && end <= |q| && p[..end] == q[..end]
    ensures DecodeFrom(p, end, 0, true) == DecodeFrom(q, end, 0, true)
  {
    assert forall k :: 0 <= k < end ==> p[k] == p[..end][k] == q[..end][k] == q[k];
    DecodeAgrees(p, q, end, 0, true);
  }

  /** The frame of the counterexample above is rejected by the strict check. */
  lemma StrictRejectsChunkPastFrame()
    ensures DecodeFrom([LF, HASH, ZERO + 3, LF, SMALL_A, SMALL_B, SMALL_X], 6, 0, true) == Decoded([], Some(Malformed))
  {
    var buf: seq<byte> := [LF, HASH, ZERO + 3, LF, SMALL_A, SMALL_B, SMALL_X];
    assert buf[2..3] == Decimal(3);
    AtoiDecimal(3);
    assert HeaderEnd(buf, 6, 2) == 3;
    assert DecodeFrom(buf, 6, 0, true) == DecodeBody(buf, 6, 3, 3, true);
  }
}

=== FILE: chunk_walk.dfy ===
/** A chunk-aware matcher for the "v1.1" framing, the corrected form of the
    `bytes.Index` search that `Receive` does for `\n##\n`.

    Section 4.2 of RFC 6242 lets chunk data hold any bytes, `\n##\n`
    included, so the end of a chunked message can be found only by walking
    the chunk headers: each `\n#<size>\n` is skipped together with the `size`
    bytes it announces, and the first `\n##\n` met at a chunk boundary ends
    the message. */
module ChunkWalk {
  import opened Bytes
  import opened Chunks
  import opened Framing
  import opened Scanner

  /** The walk from the chunk boundary `i` of the bytes `s` shown so far:
      `NoMatch` while the message is incomplete, `Found` at the terminator
      that follows the last chunk, and a failure on bytes that cannot be a
      chunked message. */
  function Walk(s: seq<byte>, i: nat): (r: MatchOutcome)
    requires i <= |s|
    ensures r.Found? ==> i <= r.end && OccursAt(s, EndOfChunks, r.end)
    decreases |s| - i
  {
    if i + 4 > |s| then NoMatch
    else if s[i] != LF || s[i + 1] != HASH then MatchFailure("missing chunk marker")
    else if s[i + 2] == HASH then
      if s[i + 3] == LF then
        assert s[i..i + 4] == EndOfChunks;
        Found(i)
      else MatchFailure("malformed end of chunks")
    else
      var j := HeaderEnd(s, |s|, i + 2);
      if j == |s| then NoMatch
      else
        match Atoi(s[i + 2..j])
        case None => MatchFailure("malformed chunk size")
        case Some(size) =>
          if size < 0 then MatchFailure("malformed chunk size")
          else if j + 1 + size > |s| then NoMatch
          else Walk(s, j + 1 + size)
  }

  /** The matcher: the walk from the start of the bytes shown. */
  function ChunkMatcher(): seq<byte> -> MatchOutcome {
    (s: seq<byte>) => Walk(s, 0)
  }

  /** The first newline at or after `j` below `end` is the `r` that has a
      newline and none before it. */
  lemma HeaderEndAt(buf: seq<byte>, end: nat, j: nat, r: nat)
    requires j <= r <= end <= |buf|
    requires r < end ==> buf[r] == LF
    requires forall k :: j <= k < r ==> buf[k] != LF
    ensures HeaderEnd(buf, end, j) == r
  {
  }

  /** Shown anything that starts with a whole chunked message, the walk
      answers that message's own terminator, whatever the payload holds. */
  lemma WalkFindsTerminator(data: seq<byte>, s: seq<byte>)
    requires Encode("v1.1", data) <= s
    ensures Walk(s, 0) == Found(|Encode("v1.1", data)| - 4)
  {
    var msg, h := Encode("v1.1", data), |Decimal(|data|)|;
    HeaderBytes(data, msg, h);
    WholeMessageFound(msg, s, h, |data|);
  }

  /** Bytes that start with a header announcing `size` bytes, then those
      bytes and a terminator: the walk skips the chunk and stops at the
      terminator. */
  lemma WholeMessageFound(msg: seq<byte>, s: seq<byte>, h: nat, size: nat)
    requires msg <= s && |msg| == h + size + 7
    requires msg[0] == LF && msg[1] == HASH && msg[2] != HASH && msg[2 + h] == LF
    requires Atoi(msg[2..2 + h]) == Some(size)
    requires forall k :: 2 <= k < 2 + h ==> msg[k] != LF
    requires msg[3 + h + size..] == EndOfChunks
    ensures Walk(s, 0) == Found(|msg| - 4)
  {
    var t := 3 + h + size;
    assert s[0] == msg[0] && s[1] == msg[1] && s[2] == msg[2] && s[2 + h] == msg[2 + h];
    assert s[2..2 + h] == msg[2..2 + h];
    HeaderEndAt(s, |s|, 2, 2 + h);
    assert Walk(s, 0) == Walk(s, t);
    assert s[t..t + 4] == msg[t..];
    TerminatorAt(s, t);
  }

  /** A terminator at a chunk boundary ends the walk there. */
  lemma TerminatorAt(s: seq<byte>, t: nat)
    requires t + 4 <= |s| && s[t..t + 4] == EndOfChunks
    ensures Walk(s, t) == Found(t)
  {
    assert s[t] == s[t..t + 4][0] && s[t + 1] == s[t..t + 4][1];
    assert s[t + 2] == s[t..t + 4][2] && s[t + 3] == s[t..t + 4][3];
  }

  /** The header of a chunked encoding: marker, digits, newline. */
  lemma HeaderBytes(data: seq<byte>, msg: seq<byte>, h: nat)
    requires msg == Encode("v1.1", data) && h == |Decimal(|data|)|
    ensures |msg| == h + |data| + 7 && 1 <= h
    ensures msg[0] == LF && msg[1] == HASH && msg[2] != HASH && msg[2 + h] == LF
    ensures Atoi(msg[2..2 + h]) == Some(|data|)
    ensures forall k :: 2 <= k < 2 + h ==> msg[k] != LF
    ensures msg[3 + h + |data|..] == EndOfChunks
  {
    assert msg + [] == msg;
    ChunkedHeaderLayout(data, [], msg, |msg|, h);
    ChunkedBodyLayout(data, [], msg, h);
    assert msg[2] == msg[2..2 + h][0];
    AtoiDecimal(|data|);
  }

  /** Shown a proper prefix of a chunked message, the walk waits. */
  lemma WalkWaitsOnPrefix(data: seq<byte>, p: seq<byte>)
    requires p <= Encode("v1.1", data) && |p| < |Encode("v1.1", data)|
    ensures Walk(p, 0) == NoMatch
  {
    var msg, h := Encode("v1.1", data), |Decimal(|data|)|;
    HeaderBytes(data, msg, h);
    if 4 <= |p| {
      PrefixWaits(msg, p, h, |data|);
    }
  }

  /** A prefix of at least four bytes of a message with that header: the
      walk waits, in the header or in the body. */
  lemma PrefixWaits(msg: seq<byte>, p: seq<byte>, h: nat, size: nat)
    requires p <= msg && 4 <= |p| < |msg| == h + size + 7
    requires msg[0] == LF && msg[1] == HASH && msg[2] != HASH && msg[2 + h] == LF
    requires Atoi(msg[2..2 + h]) == Some(size)
    requires forall k :: 2 <= k < 2 + h ==> msg[k] != LF
    ensures Walk(p, 0) == NoMatch
  {
    assert p[0] == msg[0] && p[1] == msg[1] && p[2] == msg[2];
    if 2 + h < |p| {
      assert p[2 + h] == msg[2 + h];
      assert p[2..2 + h] == msg[2..2 + h];
      WaitsInBody(p, h, size);
    } else {
      WaitsInHeader(p);
    }
  }

  /** A marker whose header has not yet reached its newline: the walk waits. */
  lemma WaitsInHeader(p: seq<byte>)
    requires 4 <= |p| && p[0] == LF && p[1] == HASH && p[2] != HASH
    requires forall k :: 2 <= k < |p| ==> p[k] != LF
    ensures Walk(p, 0) == NoMatch
  {
    HeaderEndAt(p, |p|, 2, |p|);
  }

  /** A complete header announcing `size` bytes, with the bytes shown
      ending before the terminator that follows them: the walk waits. */
  lemma WaitsInBody(p: seq<byte>, h: nat, size: nat)
    requires 4 <= |p| && p[0] == LF && p[1] == HASH && p[2] != HASH
    requires 2 + h < |p| && p[2 + h] == LF && forall k :: 2 <= k < 2 + h ==> p[k] != LF
    requires Atoi(p[2..2 + h]) == Some(size) && |p| < 7 + h + size
    ensures Walk(p, 0) == NoMatch
  {
    HeaderEndAt(p, |p|, 2, 2 + h);
    if 3 + h + size <= |p| {
      assert Walk(p, 0) == Walk(p, 3 + h + size);
    }
  }
}

=== FILE: chunks.dfy ===
/** The chunk reassembler `parseChuncks` of netconf/transport.go: decodes the
    chunked framing of section 4.2 of RFC 6242 in place, as the code does it
    (more leniently than the RFC's grammar).

    `DecodeFrom` is the functional reference: it returns the concatenated
    payload and the error, if any. `ParseChunks` is the in-place loop of the
    source, proved to agree with it. */
module Chunks {
  import opened Bytes

  /** Why decoding stopped early.
      - BadHeader: the header text was rejected by `strconv.Atoi`.
      - Malformed: `ErrMalformedChunk`, the chunk runs past `end`.
      - OutOfRange: the Go runtime would panic on the slice expression of
        the copy (a negative size, or a chunk reaching past the buffer). */
  datatype ChunkError = BadHeader(header: seq<byte>) | Malformed | OutOfRange

  datatype Decoded = Decoded(payload: seq<byte>, err: Option<ChunkError>)

  /** The inner scan: the first index at or after `j` holding a newline, or
      `end` when there is none. */
  function HeaderEnd(buf: seq<byte>, end: nat, j: nat): (r: nat)
    requires j <= end <= |buf|
    ensures j <= r <= end
    ensures r < end ==> buf[r] == LF
    ensures forall k :: j <= k < r ==> buf[k] != LF
    decreases end - j
  {
    if j == end || buf[j] == LF then j else HeaderEnd(buf, end, j + 1)
  }

  /** The check on a chunk's last index: `endChunk > end` as written, and
      `endChunk >= end` when `strict` (the last byte must lie inside the frame). */
  function PastEnd(last: int, end: nat, strict: bool): (r: bool)
    ensures !r ==> last <= end
    ensures r <==> last > end || (strict && last == end)
  {
    if strict then last >= end else last > end
  }

  /** Decoding from scan position `i` to the end of the frame `buf[..end]`:
      bytes that do not start a `\n#` marker are skipped. */
  function DecodeFrom(buf: seq<byte>, end: nat, i: nat, strict: bool): (r: Decoded)
    requires end <= |buf| && i <= end + 1
    ensures |r.payload| + i <= end || r.payload == []
    decreases end + 1 - i, 2
  {
    if i + 1 >= end then Decoded([], None)
    else if buf[i] != LF || buf[i + 1] != HASH then DecodeFrom(buf, end, i + 1, strict)
    else DecodeChunk(buf, end, i, strict)
  }

  /** A `\n#` marker at `i`: read the header up to its newline. A header whose
      last byte is `#` (`\n##\n`, and also `\n#\n`) ends the frame. */
  function DecodeChunk(buf: seq<byte>, end: nat, i: nat, strict: bool): (r: Decoded)
    requires end <= |buf| && i + 1 < end
    ensures |r.payload| + i <= end || r.payload == []
    decreases end + 1 - i, 1
  {
    var j := HeaderEnd(buf, end, i + 2);
    if buf[j - 1] == HASH then Decoded([], None)
    else
      match Atoi(buf[i + 2..j])
      case None => Decoded([], Some(BadHeader(buf[i + 2..j])))
      case Some(size) => DecodeBody(buf, end, j, size, strict)
  }

  /** The chunk body after the header's newline at `j`: `size` bytes starting
      at `j + 1`, whose last index is `j + size`. */
  function DecodeBody(buf: seq<byte>, end: nat, j: nat, size: int, strict: bool): (r: Decoded)
    requires end <= |buf| && j <= end
    ensures |r.payload| + j <= end
    decreases end - j, 3
  {
    var last := j + size;
    if PastEnd(last, end, strict) then Decoded([], Some(Malformed))
    else if size < 0 || last + 1 > |buf| then Decoded([], Some(OutOfRange))
    else
      var rest := DecodeFrom(buf, end, last + 1, strict);
      Decoded(buf[j + 1..last + 1] + rest.payload, rest.err)
  }

  /** The inner loop of `parseChuncks`: advance `j` to the header's newline. */
  method ScanHeader(buf: seq<byte>, end: nat, from: nat) returns (j: nat)
    requires from <= end <= |buf|
    ensures j == HeaderEnd(buf, end, from)
  {
    j := from;
    while j < end && buf[j] != LF
      invariant from <= j <= end
      invariant HeaderEnd(buf, end, j) == HeaderEnd(buf, end, from)
      decreases end - j
    {
      j := j + 1;
    }
  }

  /** The header scan only looks at bytes from `from` up to `end`. */
  lemma HeaderEndAgrees(a: seq<byte>, b: seq<byte>, end: nat, from: nat)
    requires from <= end <= |a| && end <= |b|
    requires forall k :: from <= k < end ==> a[k] == b[k]
    ensures HeaderEnd(a, end, from) == HeaderEnd(b, end, from)
  {
  }

  /** Go's `copy(buf[n:], buf[start:start+size])` with `n <= start`: the
      chunk moves down to offset `n`, and everything from `n + size` on is
      left alone. */
  function CopyDown(buf: seq<byte>, n: nat, start: nat, size: nat): (r: seq<byte>)
    requires n <= start && start + size <= |buf|
    ensures |r| == |buf|
    ensures r[..n + size] == buf[..n] + buf[start..start + size]
    ensures forall k :: n + size <= k < |buf| ==> r[k] == buf[k]
  {
    buf[..n] + buf[start..start + size] + buf[n + size..]
  }

  /** How far decoding may look: as written, a chunk may end on the byte at
      index `end` and so the whole buffer matters; the strict check keeps every
      read inside the frame `buf[..end]`. */
  function Reach(buf: seq<byte>, end: nat, strict: bool): nat {
    if strict then end else |buf|
  }

  /** The buffers `a` and `b` hold the same bytes from `i` up to what decoding
      can reach. */
  predicate AgreeFrom(a: seq<byte>, b: seq<byte>, end: nat, i: nat, strict: bool) {
    && end <= |a| && end <= |b| && (strict || |a| == |b|)
    && forall k :: i <= k < Reach(a, end, strict) ==> a[k] == b[k]
  }

  /** Agreeing buffers hold equal slices within reach. */
  lemma AgreeSlice(a: seq<byte>, b: seq<byte>, end: nat, i: nat, strict: bool, lo: nat, hi: nat)
    requires AgreeFrom(a, b, end, i, strict) && i <= lo <= hi <= Reach(a, end, strict)
    ensures hi <= |a| && hi <= |b| && a[lo..hi] == b[lo..hi]
  {
    var sa, sb := a[lo..hi], b[lo..hi];
    forall k | 0 <= k < hi - lo
      ensures sa[k] == sb[k]
    {
      assert sa[k] == a[lo + k] && sb[k] == b[lo + k];
    }
  }

  /** The header scan agrees on buffers that agree from `i` on. */
  lemma HeaderEndAgreesFrom(a: seq<byte>, b: seq<byte>, end: nat, i: nat, strict: bool, from: nat)
    requires AgreeFrom(a, b, end, i, strict) && i <= from <= end
    ensures HeaderEnd(a, end, from) == HeaderEnd(b, end, from)
  {
    HeaderEndAgrees(a, b, end, from);
  }

  /** Decoding from `i` reads only bytes at or after `i` and within reach:
      two buffers that agree there decode alike. */
  lemma {:induction false} DecodeAgrees(a: seq<byte>, b: seq<byte>, end: nat, i: nat, strict: bool)
    requires AgreeFrom(a, b, end, i, strict) && i <= end + 1
    ensures DecodeFrom(a, end, i, strict) == DecodeFrom(b, end, i, strict)
    decreases end + 1 - i, 2
  {
    if i + 1 >= end {
    } else if a[i] != LF || a[i + 1] != HASH {
      DecodeAgrees(a, b, end, i + 1, strict);
    } else {
      ChunkAgrees(a, b, end, i, strict);
    }
  }

  lemma {:induction false} ChunkAgrees(a: seq<byte>, b: seq<byte>, end: nat, i: nat, strict: bool)
    requires AgreeFrom(a, b, end, i, strict) && i + 1 < end
    ensures DecodeChunk(a, end, i, strict) == DecodeChunk(b, end, i, strict)
    decreases end + 1 - i, 1
  {
    HeaderEndAgreesFrom(a, b, end, i, strict, i + 2);
    var j := HeaderEnd(a, end, i + 2);
    assert j == HeaderEnd(b, end, i + 2);
    AgreeSlice(a, b, end, i, strict, i + 2, j);
    assert a[j - 1] == b[j - 1];
    if a[j - 1] != HASH {
      var header := a[i + 2..j];
      assert header == b[i + 2..j];
      match Atoi(header)
      case None =>
      case Some(size) =>
        assert AgreeFrom(a, b, end, j, strict);
        BodyAgrees(a, b, end, j, size, strict);
    }
  }

  lemma {:induction false} BodyAgrees(a: seq<byte>, b: seq<byte>, end: nat, j: nat, size: int, strict: bool)
    requires AgreeFrom(a, b, end, j, strict) && j <= end
    ensures DecodeBody(a, end, j, size, strict) == DecodeBody(b, end, j, size, strict)
    decreases end - j, 3
  {
    var last := j + size;
    if !PastEnd(last, end, strict) && size >= 0 && last + 1 <= |a| {
      AgreeSlice(a, b, end, j, strict, j + 1, last + 1);
      DecodeAgrees(a, b, end, last + 1, strict);
    }
  }

  /** A chunk body that passes the bounds checks is taken whole, followed by
      whatever decodes after it. */
  lemma BodyTaken(buf: seq<byte>, end: nat, j: nat, size: nat)
    requires end <= |buf| && j + size <= end && j + 1 + size <= |buf|
    ensures DecodeBody(buf, end, j, size, false)
         == Decoded(buf[j + 1..j + 1 + size] + DecodeFrom(buf, end, j + 1 + size, false).payload,
                    DecodeFrom(buf, end, j + 1 + size, false).err)
  {
  }

  /** The copy writes below `j + 1 + size` only, so decoding from there is
      unchanged. */
  lemma CopyLeavesRest(buf: seq<byte>, end: nat, n: nat, j: nat, size: nat, out: seq<byte>)
    requires end <= |buf| && n < j && j + size <= end && j + 1 + size <= |buf|
    requires out == CopyDown(buf, n, j + 1, size)
    ensures DecodeFrom(out, end, j + 1 + size, false) == DecodeFrom(buf, end, j + 1 + size, false)
  {
    assert AgreeFrom(out, buf, end, j + 1 + size, false);
    DecodeAgrees(out, buf, end, j + 1 + size, false);
  }

  /** Moving a chunk's body down to offset `n` leaves the rest of the frame
      decoding as before, so the payload decoded so far grows by exactly that
      body. */
  lemma CopyKeepsDecoding(buf: seq<byte>, end: nat, n: nat, j: nat, size: nat, out: seq<byte>)
    requires end <= |buf| && n < j && j + size <= end && j + 1 + size <= |buf| && n + size <= |out| && end <= |out|
    requires out[..n + size] == buf[..n] + buf[j + 1..j + 1 + size]
    requires DecodeFrom(out, end, j + 1 + size, false) == DecodeFrom(buf, end, j + 1 + size, false)
    ensures out[..n + size] + DecodeFrom(out, end, j + 1 + size, false).payload
         == buf[..n] + DecodeBody(buf, end, j, size, false).payload
    ensures DecodeFrom(out, end, j + 1 + size, false).err == DecodeBody(buf, end, j, size, false).err
  {
    BodyTaken(buf, end, j, size);
    AppendAssoc(buf[..n], buf[j + 1..j + 1 + size], DecodeFrom(buf, end, j + 1 + size, false).payload);
  }

  /** The `copy` of one chunk body, and what it leaves to decode. */
  method MoveBody(buf: seq<byte>, end: nat, n: nat, j: nat, size: nat) returns (out: seq<byte>)
    requires end <= |buf| && n < j && j + size <= end && j + 1 + size <= |buf|
    ensures |out| == |buf|
    ensures out[..n + size] + DecodeFrom(out, end, j + 1 + size, false).payload
         == buf[..n] + DecodeBody(buf, end, j, size, false).payload
    ensures DecodeFrom(out, end, j + 1 + size, false).err == DecodeBody(buf, end, j, size, false).err
  {
    out := CopyDown(buf, n, j + 1, size);
    CopyLeavesRest(buf, end, n, j, size, out);
    CopyKeepsDecoding(buf, end, n, j, size, out);
  }

  /** The part of a pass after a header announcing `size` bytes, whose
      newline is at `j`: the bounds checks, then the copy. */
  method TakeBody(buf: seq<byte>, end: nat, n: nat, j: nat, size: int)
    returns (out: seq<byte>, n': nat, next: nat, done: bool, err: Option<ChunkError>)
    requires end <= |buf| && n < j <= end
    ensures |out| == |buf|
    ensures done ==> out == buf && n' == n && DecodeBody(buf, end, j, size, false) == Decoded([], err)
    ensures !done ==> j < next <= end + 1 && n' <= next && n' <= end
    ensures !done ==> out[..n'] + DecodeFrom(out, end, next, false).payload
                      == buf[..n] + DecodeBody(buf, end, j, size, false).payload
    ensures !done ==> DecodeFrom(out, end, next, false).err == DecodeBody(buf, end, j, size, false).err
  {
    out, n', next, done := buf, n, j, true;
    var start := j + 1;
    var last := start + size - 1;
    if PastEnd(last, end, false) {
      err := Some(Malformed);
      return;
    }
    if size < 0 || last + 1 > |buf| {
      err := Some(OutOfRange);
      return;
    }
    out := MoveBody(buf, end, n, j, size);
    n', next, done, err := n + size, j + 1 + size, false, None;
  }

  /** One pass of the loop body of `parseChuncks` at a `\n#` marker found at
      `i`: either the frame ends here (`done`, with `err` set as the source
      returns it) or one chunk is copied down to offset `n` and scanning goes
      on at `next`, past the chunk. */
  method TakeChunk(buf: seq<byte>, end: nat, n: nat, i: nat)
    returns (out: seq<byte>, n': nat, next: nat, done: bool, err: Option<ChunkError>)
    requires end <= |buf| && n <= i && i + 1 < end && buf[i] == LF && buf[i + 1] == HASH
    ensures |out| == |buf|
    ensures done ==> out == buf && n' == n && DecodeFrom(buf, end, i, false) == Decoded([], err)
    ensures !done ==> i < next <= end + 1 && n' <= next && n' <= end
    ensures !done ==> out[..n'] + DecodeFrom(out, end, next, false).payload
                      == buf[..n] + DecodeFrom(buf, end, i, false).payload
    ensures !done ==> DecodeFrom(out, end, next, false).err == DecodeFrom(buf, end, i, false).err
  {
    out, n', next, done := buf, n, i, true;
    var j := ScanHeader(buf, end, i + 2);
    assert DecodeFrom(buf, end, i, false) == DecodeChunk(buf, end, i, false);
    if buf[j - 1] == HASH {
      err := None;
      return;
    }
    var parsed := Atoi(buf[i + 2..j]);
    if parsed.None? {
      err := Some(BadHeader(buf[i + 2..j]));
      return;
    }
    assert DecodeFrom(buf, end, i, false) == DecodeBody(buf, end, j, parsed.value, false);
    out, n', next, done, err := TakeBody(buf, end, n, j, parsed.value);
  }

  /** `parseChuncks(buf, end)`: returns the buffer after the in-place copies,
      the decoded length and the error. The payload is compacted to the front
      of the buffer one chunk at a time; the write cursor `n` never passes the
      read cursor `i`, so no unread byte is overwritten. */
  method ParseChunks(buf: seq<byte>, end: nat) returns (out: seq<byte>, n: nat, err: Option<ChunkError>)
    requires end <= |buf|
    ensures |out| == |buf|
    ensures n == |DecodeFrom(buf, end, 0, false).payload| <= end
    ensures out[..n] == DecodeFrom(buf, end, 0, false).payload
    ensures err == DecodeFrom(buf, end, 0, false).err
  {
    ghost var total := DecodeFrom(buf, end, 0, false);
    out := buf;
    n := 0;
    var i: nat := 0;
    while i + 1 < end
      invariant i <= end + 1 && n <= i && n <= end && |out| == |buf|
      invariant out[..n] + DecodeFrom(out, end, i, false).payload == total.payload
      invariant DecodeFrom(out, end, i, false).err == total.err
      decreases end + 1 - i
    {
      if out[i] != LF || out[i + 1] != HASH {
        assert DecodeFrom(out, end, i, false) == DecodeFrom(out, end, i + 1, false);
        i := i + 1;
        continue;
      }
      var done;
      out, n, i, done, err := TakeChunk(out, end, n, i);
      if done {
        return;
      }
    }
    err := None;
  }
}

=== FILE: framing.dfy ===
/** The frame encoder of `Send` (netconf/transport.go) and its partners: the
    end-of-message framing of section 4.3 of RFC 6242 for every version
    string except "v1.1", and a single chunk of section 4.2 for "v1.1". */
module Framing {
  import opened Bytes
  import opened Chunks

  /** `msgSeperator`, `]]>]]>`. */
  const EndOfMessage: seq<byte> := [RBRACKET, RBRACKET, GT, RBRACKET, RBRACKET, GT]
  /** `msgSeperator_v11`, `\n##\n`. */
  const EndOfChunks: seq<byte> := [LF, HASH, HASH, LF]

  /** The version string selects chunked framing only when it is exactly "v1.1". */
  predicate IsChunked(version: string) {
    version == "v1.1"
  }

  /** The separator `Send` appends and `Receive` scans for. */
  function Separator(version: string): (r: seq<byte>)
    ensures IsChunked(version) ==> r == [10, 35, 35, 10]
    ensures !IsChunked(version) ==> r == [93, 93, 62, 93, 93, 62]
  {
    if IsChunked(version) then EndOfChunks else EndOfMessage
  }

  /** `fmt.Sprintf("\n#%d\n", n)`. */
  function ChunkHeader(n: nat): seq<byte> {
    [LF, HASH] + Decimal(n) + [LF]
  }

  /** The bytes `Send` hands to one `Write`. */
  function Encode(version: string, data: seq<byte>): seq<byte> {
    (if IsChunked(version) then ChunkHeader(|data|) else []) + data + Separator(version)
  }

  /** Every encoding ends with its version's separator, and is the data plus
      the separator, plus for "v1.1" a header of the digits and three bytes. */
  lemma EncodeFrames(version: string, data: seq<byte>)
    ensures EndsWith(Encode(version, data), Separator(version))
    ensures |Encode(version, data)| == |data| + |Separator(version)| + if IsChunked(version) then |Decimal(|data|)| + 3 else 0
  {
    var w := Encode(version, data);
    assert w[|w| - |Separator(version)|..] == Separator(version);
  }

  /** Encoder shape for "v1.1": a `\n#` marker, a header that `strconv.Atoi`
      reads back as the payload's length in bytes, a newline, the payload and
      the terminator. */
  lemma ChunkedShape(data: seq<byte>)
    ensures var w := Encode("v1.1", data);
            var h := |w| - |data| - 7;
            && 1 <= h && w[..2] == [LF, HASH] && Atoi(w[2..2 + h]) == Some(|data|)
            && w[2 + h] == LF && w[3 + h..3 + h + |data|] == data && w[3 + h + |data|..] == EndOfChunks
  {
    var w := Encode("v1.1", data);
    var dec := Decimal(|data|);
    assert w == [LF, HASH] + dec + [LF] + data + EndOfChunks;
    assert w[2..2 + |dec|] == dec;
    AtoiDecimal(|data|);
  }

  /** Encoder shape for every other version: the payload then `]]>]]>`. */
  lemma EndOfMessageShape(version: string, data: seq<byte>)
    requires !IsChunked(version)
    ensures Encode(version, data)[..|data|] == data
    ensures Encode(version, data)[|data|..] == EndOfMessage
  {
  }

  /** The header of a chunked encoding at the front of a buffer: the `\n#`
      marker, the digits, and the newline that ends them. */
  lemma ChunkedHeaderLayout(data: seq<byte>, tail: seq<byte>, buf: seq<byte>, end: nat, h: nat)
    requires h == |Decimal(|data|)| && buf == Encode("v1.1", data) + tail && end == |Encode("v1.1", data)|
    ensures end == h + |data| + 7 && end <= |buf|
    ensures buf[0] == LF && buf[1] == HASH && buf[2..2 + h] == Decimal(|data|)
    ensures HeaderEnd(buf, end, 2) == 2 + h && buf[1 + h] != HASH
  {
    var dec := Decimal(|data|);
    var front, rest := [LF, HASH] + dec, data + EndOfChunks + tail;
    assert buf == front + [LF] + data + EndOfChunks + tail;
    AppendAssoc(front + [LF] + data, EndOfChunks, tail);
    AppendAssoc(front + [LF], data, EndOfChunks + tail);
    AppendAssoc(front, [LF], rest);
    assert buf == [LF, HASH] + dec + ([LF] + rest);
    SliceOfMiddle([LF, HASH], dec, [LF] + rest, 0, h);
    var digits := buf[2..2 + h];
    forall k | 2 <= k < 2 + h
      ensures buf[k] != LF
    {
      assert buf[k] == digits[k - 2];
    }
    assert buf[1 + h] == digits[h - 1];
    assert buf[2 + h] == ([LF] + rest)[0] == LF;
  }

  /** The payload and the terminator of a chunked encoding at the front of a
      buffer. */
  lemma ChunkedBodyLayout(data: seq<byte>, tail: seq<byte>, buf: seq<byte>, h: nat)
    requires h == |Decimal(|data|)| && buf == Encode("v1.1", data) + tail
    ensures 7 + h + |data| <= |buf|
    ensures buf[3 + h..3 + h + |data|] == data
    ensures buf[3 + h + |data|..7 + h + |data|] == EndOfChunks
  {
    var front := [LF, HASH] + Decimal(|data|) + [LF];
    assert buf == front + data + EndOfChunks + tail;
    SliceOfMiddle(front + data, EndOfChunks, tail, 0, 4);
    AppendAssoc(front + data, EndOfChunks, tail);
    SliceOfMiddle(front, data, EndOfChunks + tail, 0, |data|);
  }

  /** A frame whose last four bytes are `\n##\n` decodes to nothing from there. */
  lemma TerminatorDecodesEmpty(buf: seq<byte>, end: nat, t: nat, strict: bool)
    requires t + 4 == end <= |buf| && buf[t..end] == EndOfChunks
    ensures DecodeFrom(buf, end, t, strict) == Decoded([], None)
  {
    assert buf[t] == buf[t..end][0] && buf[t + 1] == buf[t..end][1];
    assert buf[t + 2] == buf[t..end][2] && buf[t + 3] == buf[t..end][3];
    assert HeaderEnd(buf, end, t + 2) == t + 3;
    assert DecodeFrom(buf, end, t, strict) == DecodeChunk(buf, end, t, strict);
  }

  /** A frame holding one chunk of `data` behind an `h`-byte header, then the
      terminator, decodes to `data`. */
  lemma SingleChunkDecodes(buf: seq<byte>, end: nat, h: nat, data: seq<byte>, strict: bool)
    requires end == h + |data| + 7 && end <= |buf|
    requires buf[0] == LF && buf[1] == HASH
    requires HeaderEnd(buf, end, 2) == 2 + h && buf[1 + h] != HASH
    requires Atoi(buf[2..2 + h]) == Some(|data|)
    requires buf[3 + h..3 + h + |data|] == data
    requires buf[3 + h + |data|..end] == EndOfChunks
    ensures DecodeFrom(buf, end, 0, strict) == Decoded(data, None)
  {
    var j := 2 + h;
    TerminatorDecodesEmpty(buf, end, j + 1 + |data|, strict);
    assert DecodeFrom(buf, end, 0, strict) == DecodeChunk(buf, end, 0, strict);
    assert DecodeChunk(buf, end, 0, strict) == DecodeBody(buf, end, j, |data|, strict);
  }

  /** v1.1 round trip: decoding the encoding of any payload, with `end` just
      past the terminator, gives the payload back, whatever the payload
      holds (an embedded `\n##\n` included) and whatever follows `end` in the
      buffer. It holds for the decoder as written and for the strict one. */
  lemma DecodeEncoded(data: seq<byte>, tail: seq<byte>, strict: bool)
    ensures DecodeFrom(Encode("v1.1", data) + tail, |Encode("v1.1", data)|, 0, strict) == Decoded(data, None)
  {
    var h := |Decimal(|data|)|;
    var buf := Encode("v1.1", data) + tail;
    var end := |Encode("v1.1", data)|;
    ChunkedHeaderLayout(data, tail, buf, end, h);
    ChunkedBodyLayout(data, tail, buf, h);
    AtoiDecimal(|data|);
    SingleChunkDecodes(buf, end, h, data, strict);
  }

  /** `]]>]]>` overlaps itself only by its three-byte half. */
  lemma SeparatorSelfOverlap(t: nat)
    requires 0 < t < 6
    ensures EndOfMessage[t..] == EndOfMessage[..6 - t] <==> t == 3
  {
    if t == 3 {
      assert EndOfMessage[3..] == EndOfMessage[..3];
    } else {
      var k := if t == 1 || t == 4 then 1 else 0;
      assert EndOfMessage[t..][k] != EndOfMessage[..6 - t][k];
    }
  }

  /** `]]>]]>` overlaps itself only by its three-byte half: a match that
      starts inside `data` and runs into the appended separator means `data`
      ends with `]]>`. */
  lemma SeparatorOverlap(data: seq<byte>, w: seq<byte>, m: nat)
    requires w == data + EndOfMessage && m < |data| < m + 6 && OccursAt(w, EndOfMessage, m)
    ensures EndsWith(data, EndOfMessage[..3])
  {
    var t := |data| - m;
    var hit, sep := w[m..m + 6], w[|data|..];
    assert hit == EndOfMessage && sep == EndOfMessage;
    assert hit[t..] == sep[..6 - t];
    SeparatorSelfOverlap(t);
    assert data[|data| - 3..] == hit[..3];
  }

  /** Without `]]>]]>` inside and without a trailing `]]>`, `data` followed by
      the separator holds no occurrence before the separator's own. */
  lemma NoEarlierSeparator(data: seq<byte>, w: seq<byte>)
    requires w == data + EndOfMessage
    requires !Contains(data, EndOfMessage) && !EndsWith(data, EndOfMessage[..3])
    ensures forall m :: 0 <= m < |data| ==> !OccursAt(w, EndOfMessage, m)
  {
    forall m | 0 <= m < |data|
      ensures !OccursAt(w, EndOfMessage, m)
    {
      if OccursAt(w, EndOfMessage, m) {
        if m + 6 <= |data| {
          assert w[m..m + 6] == data[m..m + 6];
          assert OccursAt(data, EndOfMessage, m);
        } else {
          SeparatorOverlap(data, w, m);
        }
      }
    }
  }

  /** `]]>]]>` inside `data`, or a trailing `]]>`, gives an occurrence in
      `data` followed by the separator that starts inside `data`. */
  lemma EarlierSeparator(data: seq<byte>, w: seq<byte>)
    requires w == data + EndOfMessage
    requires Contains(data, EndOfMessage) || EndsWith(data, EndOfMessage[..3])
    ensures exists k :: 0 <= k < |data| && OccursAt(w, EndOfMessage, k)
  {
    if Contains(data, EndOfMessage) {
      var k :| 0 <= k <= |data| && OccursAt(data, EndOfMessage, k);
      assert w[k..k + 6] == data[k..k + 6];
      assert OccursAt(w, EndOfMessage, k);
    } else {
      var k := |data| - 3;
      assert w[k..k + 3] == data[k..];
      assert w[k + 3..k + 6] == EndOfMessage[..3];
      assert w[k..k + 6] == w[k..k + 3] + w[k + 3..k + 6];
      assert OccursAt(w, EndOfMessage, k);
    }
  }

  /** v1.0 separator position, both ways: in the end-of-message encoding of
      `data`, the first `]]>]]>` sits exactly at `|data|` if and only if
      `data` neither contains `]]>]]>` nor ends with `]]>` (which would join
      the separator's first half into an earlier match). */
  lemma SeparatorFoundAtEnd(version: string, data: seq<byte>)
    requires !IsChunked(version)
    ensures Index(Encode(version, data), EndOfMessage) == |data|
        <==> !Contains(data, EndOfMessage) && !EndsWith(data, EndOfMessage[..3])
  {
    var w := Encode(version, data);
    assert w == data + EndOfMessage;
    assert OccursAt(w, EndOfMessage, |data|);
    if !Contains(data, EndOfMessage) && !EndsWith(data, EndOfMessage[..3]) {
      NoEarlierSeparator(data, w);
    } else {
      EarlierSeparator(data, w);
    }
  }

  /** The bytes of an occurrence of `\n##\n`. */
  lemma TerminatorBytes(w: seq<byte>, m: nat)
    requires OccursAt(w, EndOfChunks, m)
    ensures w[m] == LF && w[m + 1] == HASH && w[m + 2] == HASH
  {
    var hit := w[m..m + 4];
    assert hit == EndOfChunks;
    assert w[m] == hit[0] && w[m + 1] == hit[1] && w[m + 2] == hit[2];
  }

  /** No `\n##` starts inside a `\n#<digits>` header. */
  lemma NoTerminatorInHeader(dec: seq<byte>, w: seq<byte>, m: nat)
    requires 1 <= |dec| && AllDigits(dec) && 2 + |dec| <= |w| && w[..2 + |dec|] == [LF, HASH] + dec
    requires m < 2 + |dec| && m + 2 < |w|
    ensures !(w[m] == LF && w[m + 1] == HASH && w[m + 2] == HASH)
  {
    var pre := [LF, HASH] + dec;
    if m == 0 {
      assert w[2] == pre[2] == dec[0];
    } else if m == 1 {
      assert w[1] == pre[1];
    } else {
      assert w[m] == pre[m] == dec[m - 2];
    }
  }

  /** The chunked encoding cut at the header's newline: marker and digits,
      then the stretch from that newline to the terminator's last `#`, then
      the terminator's final newline. */
  lemma {:induction false} ChunkedSplit(data: seq<byte>, w: seq<byte>, pre: seq<byte>, inner: seq<byte>)
    requires w == Encode("v1.1", data) && pre == [LF, HASH] + Decimal(|data|)
    requires inner == [LF] + data + [LF, HASH, HASH]
    ensures w == pre + inner + [LF] && OccursAt(w, EndOfChunks, |w| - 4)
  {
    var front := pre + [LF] + data;
    assert w == front + EndOfChunks;
    SliceOfMiddle(front, EndOfChunks, [], 0, 4);
    assert front + EndOfChunks + [] == w;
    assert EndOfChunks == [LF, HASH, HASH] + [LF];
    AppendAssoc(front, [LF, HASH, HASH], [LF]);
    AppendAssoc(pre, [LF], data);
    AppendAssoc(pre, [LF] + data, [LF, HASH, HASH]);
  }

  /** Behind a `\n#<digits>` header, a stretch without `\n##\n` followed by
      one newline holds no occurrence before its last four bytes. */
  lemma NoEarlierTerminator(dec: seq<byte>, inner: seq<byte>, w: seq<byte>)
    requires 1 <= |dec| && AllDigits(dec) && 3 <= |inner| && !Contains(inner, EndOfChunks)
    requires w == [LF, HASH] + dec + inner + [LF]
    ensures forall m :: 0 <= m < |w| - 4 ==> !OccursAt(w, EndOfChunks, m)
  {
    var pre := [LF, HASH] + dec;
    assert w[..|pre|] == pre;
    forall m | 0 <= m < |w| - 4
      ensures !OccursAt(w, EndOfChunks, m)
    {
      if m < |pre| {
        // inside the marker and the digits there is no `\n##`
        NoTerminatorInHeader(dec, w, m);
        if OccursAt(w, EndOfChunks, m) {
          TerminatorBytes(w, m);
        }
      } else {
        // an occurrence here would be one inside `inner`
        var o := m - |pre|;
        SliceOfMiddle(pre, inner, [LF], o, 4);
        assert !OccursAt(inner, EndOfChunks, o);
      }
    }
  }

  /** A `\n##\n` in the stretch from the header's newline to the
      terminator's last `#` is an occurrence in the encoding that starts
      before the terminator's own. */
  lemma EarlierTerminator(pre: seq<byte>, inner: seq<byte>, w: seq<byte>)
    requires w == pre + inner + [LF] && Contains(inner, EndOfChunks)
    ensures Index(w, EndOfChunks) != -1 && Index(w, EndOfChunks) < |w| - 4
  {
    var k :| 0 <= k <= |inner| && OccursAt(inner, EndOfChunks, k);
    SliceOfMiddle(pre, inner, [LF], k, 4);
    assert OccursAt(w, EndOfChunks, |pre| + k);
  }

  /** For "v1.1" the scan for `\n##\n` stops at the encoding's own
      terminator exactly when the payload, read between the header's newline
      and the terminator's first three bytes, does not already contain one. */
  lemma TerminatorFoundAtEnd(data: seq<byte>)
    ensures Index(Encode("v1.1", data), EndOfChunks) == |Encode("v1.1", data)| - 4
        <==> !Contains([LF] + data + [LF, HASH, HASH], EndOfChunks)
  {
    var dec := Decimal(|data|);
    var w := Encode("v1.1", data);
    var inner := [LF] + data + [LF, HASH, HASH];
    ChunkedSplit(data, w, [LF, HASH] + dec, inner);
    if Contains(inner, EndOfChunks) {
      EarlierTerminator([LF, HASH] + dec, inner, w);
    } else {
      NoEarlierTerminator(dec, inner, w);
      assert OccursAt(w, EndOfChunks, |w| - 4);
    }
  }
}

=== FILE: scanner.dfy ===
/** The read loop `WaitForFunc` of netconf/transport.go, with `WaitForBytes`
    and `Receive` on top of it.

    The connection is a list of read results. A read fills at most half of
    the 8192-byte buffer, at offset `pos`, and the matcher is shown only the
    bytes of the previous read and of this one, `buf[0:pos+n]`. On no match
    the previous read's bytes move to `out` and this read's bytes move to
    the front. `Scan` is the functional reference; `WaitForFunc` is the loop
    of the source, proved to agree with it. */
module Scanner {
  import opened Bytes
  import opened Chunks
  import opened Framing

  /** `make([]byte, 8192)` and the read size `len(buf)/2`. */
  const BufSize: nat := 8192
  const ReadSize: nat := 4096

  /** One `Read`: bytes (possibly none), `io.EOF`, or any other error. */
  datatype ReadResult = Data(bytes: seq<byte>) | Eof | ReadFailure(cause: string)

  /** The matcher's answer: an index below zero, an index `end`, or an error. */
  datatype MatchOutcome = NoMatch | Found(end: nat) | MatchFailure(cause: string)

  /** Why no frame came back.
      - Incomplete: `io.EOF` before a match, the "WaitForFunc failed" error.
      - ConnectionError: a read error other than `io.EOF`, returned as is.
      - MatcherError: the matcher's own error, returned as is.
      - ChunkFailure: what `parseChuncks` reported (or a Go panic in it).
      - MatcherOverrun: the matcher answered an index whose frame reaches
        past the bytes it was shown; what Go does then is not modelled. */
  datatype ScanError =
    | Incomplete
    | ConnectionError(cause: string)
    | MatcherError(cause: string)
    | ChunkFailure(chunk: ChunkError)
    | MatcherOverrun(end: nat)

  /** The result of `WaitForFunc`: a frame, an error, or `Blocked` when the
      reads run out before the connection says anything final (the real
      `Read` would block). */
  datatype ScanOutcome = Frame(bytes: seq<byte>) | Failed(err: ScanError) | Blocked

  /** The loop's state: the `bytes.Buffer` `out`, the buffer and `pos`. */
  datatype Window = Window(out: seq<byte>, buf: seq<byte>, pos: nat)

  predicate Valid(w: Window) {
    |w.buf| == BufSize && w.pos <= ReadSize
  }

  /** Every byte received so far, in order. */
  function Held(w: Window): seq<byte>
    requires Valid(w)
  {
    w.out + w.buf[..w.pos]
  }

  /** The state before the first read: a zeroed buffer. */
  function Start(): (w: Window)
    ensures Valid(w) && Held(w) == []
  {
    Window([], seq(BufSize, _ => 0), 0)
  }

  /** `io.Reader` never returns more bytes than it was asked for. */
  predicate ReadsFit(input: seq<ReadResult>) {
    forall k :: 0 <= k < |input| && input[k].Data? ==> |input[k].bytes| <= ReadSize
  }

  /** All the bytes the reads deliver, in order. */
  function AllData(input: seq<ReadResult>): seq<byte> {
    if |input| == 0 then []
    else (if input[0].Data? then input[0].bytes else []) + AllData(input[1..])
  }

  /** `t.Read(buf[pos : pos+len(buf)/2])` returning the bytes `d`. */
  function Fill(w: Window, d: seq<byte>): (b: seq<byte>)
    requires Valid(w) && |d| <= ReadSize
    ensures |b| == BufSize
    ensures b[..w.pos] == w.buf[..w.pos] && b[w.pos..w.pos + |d|] == d
    ensures b[w.pos + |d|..] == w.buf[w.pos + |d|..]
  {
    var b := w.buf[..w.pos] + d + w.buf[w.pos + |d|..];
    SliceOfMiddle(w.buf[..w.pos], d, w.buf[w.pos + |d|..], 0, |d|);
    b
  }

  /** No match: the previous read's bytes go to `out`, this read's bytes
      `copy` down to the front, and `pos` becomes their count. Nothing
      received is lost or reordered. */
  function Advance(w: Window, d: seq<byte>): (r: Window)
    requires Valid(w) && 0 < |d| <= ReadSize
    ensures Valid(r) && r.pos == |d|
    ensures Held(r) == Held(w) + d
  {
    var b := Fill(w, d);
    if w.pos > 0 then
      var moved := b[w.pos..w.pos + |d|] + b[|d|..];
      assert moved[..|d|] == d;
      Window(w.out + b[..w.pos], moved, |d|)
    else
      assert b[..|d|] == d;
      Window(w.out, b, |d|)
  }

  /** A match at `end` in the `seen` bytes of the filled buffer `b`: for
      "v1.1" the chunks up to the terminator are reassembled in place and
      their payload is taken; otherwise the bytes before `end` are. `strict`
      selects the chunk bounds check (see `PastEnd`): false as written. */
  function Deliver(out: seq<byte>, b: seq<byte>, seen: nat, end: nat, chunked: bool, strict: bool): (r: ScanOutcome)
    requires seen <= |b|
    ensures r.Frame? ==> out <= r.bytes
    ensures r.Frame? && !chunked ==> r.bytes <= out + b[..seen]
    ensures r.Failed? && r.err.ChunkFailure? ==> chunked
    ensures r.Failed? && r.err.MatcherOverrun? ==> seen < end + (if chunked then |EndOfChunks| else 0)
  {
    if chunked then
      if end + |EndOfChunks| > seen then Failed(MatcherOverrun(end))
      else
        var dec := DecodeFrom(b, end + |EndOfChunks|, 0, strict);
        if dec.err.Some? then Failed(ChunkFailure(dec.err.value))
        else Frame(out + dec.payload)
    else if end > seen then Failed(MatcherOverrun(end))
    else
      assert b[..end] <= b[..seen];
      Frame(out + b[..end])
  }

  /** The loop of `WaitForFunc` over the remaining input, from window `w`. */
  function Scan(input: seq<ReadResult>, f: seq<byte> -> MatchOutcome, chunked: bool, w: Window): (r: ScanOutcome)
    requires Valid(w) && ReadsFit(input)
    ensures r.Blocked? ==> forall k :: 0 <= k < |input| ==> input[k].Data?
    ensures r == Failed(Incomplete) ==> Eof in input
    ensures r.Failed? && r.err.ConnectionError? ==> ReadFailure(r.err.cause) in input
    ensures r.Failed? && r.err.ChunkFailure? ==> chunked
    decreases |input|
  {
    if |input| == 0 then Blocked
    else
      match input[0]
      case ReadFailure(cause) => Failed(ConnectionError(cause))
      case Eof => Failed(Incomplete)
      case Data(d) =>
        if |d| == 0 then Scan(input[1..], f, chunked, w)
        else
          var b := Fill(w, d);
          var seen := w.pos + |d|;
          match f(b[..seen])
          case MatchFailure(cause) => Failed(MatcherError(cause))
          case Found(end) => Deliver(w.out, b, seen, end, chunked, false)
          case NoMatch => Scan(input[1..], f, chunked, Advance(w, d))
  }

  /** `WaitForFunc(f)`: the loop of the source over the input, with the
      chunks of a "v1.1" frame reassembled by `ParseChunks`. */
  method WaitForFunc(input: seq<ReadResult>, f: seq<byte> -> MatchOutcome, chunked: bool) returns (r: ScanOutcome)
    requires ReadsFit(input)
    ensures r == Scan(input, f, chunked, Start())
  {
    var out: seq<byte> := [];
    var buf: seq<byte> := seq(BufSize, _ => 0);
    var pos: nat := 0;
    var k := 0;
    while k < |input|
      invariant k <= |input| && Valid(Window(out, buf, pos))
      invariant Scan(input[k..], f, chunked, Window(out, buf, pos)) == Scan(input, f, chunked, Start())
    {
      ghost var w := Window(out, buf, pos);
      ghost var rest := input[k..];
      assert rest[0] == input[k] && rest[1..] == input[k + 1..];
      match input[k] {
        case ReadFailure(cause) =>
          return Failed(ConnectionError(cause));
        case Eof =>
          return Failed(Incomplete);
        case Data(d) =>
          var n := |d|;
          if n == 0 {
            ScanSkip(rest, f, chunked, w);
          } else {
            buf := buf[..pos] + d + buf[pos + n..];
            assert buf == Fill(w, d);
            match f(buf[..pos + n]) {
              case MatchFailure(cause) =>
                return Failed(MatcherError(cause));
              case Found(end) =>
                ScanMatch(rest, f, chunked, w, end);
                r := Finish(out, buf, pos + n, end, chunked);
                return;
              case NoMatch =>
                ScanAdvance(rest, f, chunked, w);
                if pos > 0 {
                  out := out + buf[..pos];
                  buf := buf[pos..pos + n] + buf[n..];
                }
                pos := n;
                assert Window(out, buf, pos) == Advance(w, d);
            }
          }
      }
      k := k + 1;
    }
    assert input[k..] == [];
    return Blocked;
  }

  /** The match branch of the loop: `parseChuncks` in place for "v1.1", then
      `out.Write(buf[0:end])`. */
  method Finish(out: seq<byte>, buf: seq<byte>, seen: nat, end: nat, chunked: bool) returns (r: ScanOutcome)
    requires seen <= |buf|
    ensures r == Deliver(out, buf, seen, end, chunked, false)
  {
    if chunked {
      if end + |EndOfChunks| > seen {
        return Failed(MatcherOverrun(end));
      }
      var moved, length, err := ParseChunks(buf, end + |EndOfChunks|);
      if err.Some? {
        return Failed(ChunkFailure(err.value));
      }
      return Frame(out + moved[..length]);
    }
    if end > seen {
      return Failed(MatcherOverrun(end));
    }
    return Frame(out + buf[..end]);
  }

  /** The matcher `WaitForBytes(b)` hands to `WaitForFunc`: `bytes.Index`. */
  function IndexMatcher(sep: seq<byte>): seq<byte> -> MatchOutcome {
    (s: seq<byte>) => if Index(s, sep) == -1 then NoMatch else Found(Index(s, sep))
  }

  /** The `bytes.Index` matcher never fails, waits exactly while the
      separator does not occur, and otherwise answers its first occurrence. */
  lemma IndexMatcherAnswers(sep: seq<byte>, s: seq<byte>)
    ensures !IndexMatcher(sep)(s).MatchFailure?
    ensures IndexMatcher(sep)(s) == NoMatch <==> !Contains(s, sep)
    ensures IndexMatcher(sep)(s).Found? ==> var end := IndexMatcher(sep)(s).end;
              OccursAt(s, sep, end) && forall m :: 0 <= m < end ==> !OccursAt(s, sep, m)
  {
  }

  /** `WaitForBytes(sep)`: the loop with the `bytes.Index` matcher. A match
      always leaves room for the separator, so the matcher never overruns
      when the chunked path needs four bytes past the match and the
      separator has them. */
  method WaitForBytes(input: seq<ReadResult>, sep: seq<byte>, chunked: bool) returns (r: ScanOutcome)
    requires ReadsFit(input)
    ensures r == Scan(input, IndexMatcher(sep), chunked, Start())
    ensures (!chunked || |sep| >= |EndOfChunks|) ==> !Overran(r)
  {
    r := WaitForFunc(input, IndexMatcher(sep), chunked);
    if !chunked || |sep| >= |EndOfChunks| {
      IndexNeverOverruns(input, sep, chunked, Start());
    }
  }

  /** Under chunking, a separator shorter than `\n##\n` can match within
      four bytes of the end of the bytes shown. The model reports that as an
      overrun, while the source hands `parseChuncks` the stale bytes of the
      buffer after the read: here the zeroes of a fresh buffer, which decode
      to an empty frame without error. */
  lemma ShortSeparatorOverrun()
    ensures Scan([Data([SMALL_X])], IndexMatcher([SMALL_X]), true, Start()) == Failed(MatcherOverrun(0))
    ensures DecodeFrom(Fill(Start(), [SMALL_X]), 4, 0, false) == Decoded([], None)
  {
    var b := Fill(Start(), [SMALL_X]);
    assert [SMALL_X][0..1] == [SMALL_X];
    assert Index([SMALL_X], [SMALL_X]) == 0 by {
      assert OccursAt([SMALL_X], [SMALL_X], 0);
    }
    assert b[..1] == [SMALL_X] by {
      assert b[0..1] == [SMALL_X];
    }
    assert b[1] == 0 && b[2] == 0 by {
      assert b[1..] == Start().buf[1..];
    }
    assert DecodeFrom(b, 4, 0, false) == DecodeFrom(b, 4, 1, false);
    assert DecodeFrom(b, 4, 1, false) == DecodeFrom(b, 4, 2, false);
  }

  predicate Overran(r: ScanOutcome) {
    r.Failed? && r.err.MatcherOverrun?
  }

  /** `bytes.Index` answers the start of an occurrence that lies inside the
      bytes it was shown, so the frame never reaches past them. */
  lemma {:induction false} IndexNeverOverruns(input: seq<ReadResult>, sep: seq<byte>, chunked: bool, w: Window)
    requires Valid(w) && ReadsFit(input) && (!chunked || |sep| >= |EndOfChunks|)
    ensures !Overran(Scan(input, IndexMatcher(sep), chunked, w))
    decreases |input|
  {
    if |input| > 0 && input[0].Data? {
      var d := input[0].bytes;
      if |d| == 0 {
        IndexNeverOverruns(input[1..], sep, chunked, w);
      } else {
        var seen := Fill(w, d)[..w.pos + |d|];
        if Index(seen, sep) == -1 {
          IndexNeverOverruns(input[1..], sep, chunked, Advance(w, d));
        }
      }
    }
  }

  /** The input without its zero-byte reads. */
  function DropEmpty(input: seq<ReadResult>): (r: seq<ReadResult>)
    ensures |r| <= |input|
    ensures ReadsFit(input) ==> ReadsFit(r)
    ensures forall k :: 0 <= k < |r| ==> r[k] != Data([])
    ensures AllData(r) == AllData(input)
    ensures forall x :: x in r ==> x in input
  {
    if |input| == 0 then []
    else if input[0] == Data([]) then DropEmpty(input[1..])
    else [input[0]] + DropEmpty(input[1..])
  }

  /** A read that returns no bytes changes nothing: the loop just reads again. */
  lemma {:induction false} EmptyReadsIrrelevant(input: seq<ReadResult>, f: seq<byte> -> MatchOutcome, chunked: bool, w: Window)
    requires Valid(w) && ReadsFit(input)
    ensures Scan(input, f, chunked, w) == Scan(DropEmpty(input), f, chunked, w)
    decreases |input|
  {
    if |input| > 0 {
      var rest := DropEmpty(input[1..]);
      if input[0] == Data([]) {
        EmptyReadsIrrelevant(input[1..], f, chunked, w);
      } else {
        assert ([input[0]] + rest)[1..] == rest;
        if input[0].Data? && |input[0].bytes| > 0 {
          var d := input[0].bytes;
          if f(Fill(w, d)[..w.pos + |d|]).NoMatch? {
            EmptyReadsIrrelevant(input[1..], f, chunked, Advance(w, d));
          }
        }
      }
    }
  }

  /** The bytes of a read list that starts with a read of bytes. */
  lemma AllDataCons(input: seq<ReadResult>)
    requires |input| > 0 && input[0].Data?
    ensures AllData(input) == input[0].bytes + AllData(input[1..])
  {
  }

  /** The error the loop returns for a read that is not data: `io.EOF`
      breaks out to "WaitForFunc failed", any other error is returned. */
  function StopError(stop: ReadResult): ScanError
    requires !stop.Data?
  {
    if stop.Eof? then Incomplete else ConnectionError(stop.cause)
  }

  /** The first end of stream or read error ends the loop with its error,
      unless the data reads before it already ended the loop; the reads
      after it are never looked at. */
  lemma {:induction false} StopsAtFirstError(front: seq<ReadResult>, stop: ReadResult, rest: seq<ReadResult>, f: seq<byte> -> MatchOutcome, chunked: bool, w: Window)
    requires Valid(w) && ReadsFit(front) && ReadsFit(rest) && !stop.Data?
    requires forall k :: 0 <= k < |front| ==> front[k].Data?
    ensures ReadsFit(front + [stop] + rest)
    ensures Scan(front + [stop] + rest, f, chunked, w)
         == if Scan(front, f, chunked, w).Blocked? then Failed(StopError(stop)) else Scan(front, f, chunked, w)
    decreases |front|
  {
    var input := front + [stop] + rest;
    assert ReadsFit(input) by {
      forall k | 0 <= k < |input| && input[k].Data?
        ensures |input[k].bytes| <= ReadSize
      {
        if k < |front| {
          assert input[k] == front[k];
        } else {
          assert input[k] == rest[k - |front| - 1];
        }
      }
    }
    if |front| > 0 {
      assert input[0] == front[0];
      assert input[1..] == front[1..] + [stop] + rest;
      var d := front[0].bytes;
      if |d| == 0 {
        StopsAtFirstError(front[1..], stop, rest, f, chunked, w);
      } else if f(Fill(w, d)[..w.pos + |d|]).NoMatch? {
        StopsAtFirstError(front[1..], stop, rest, f, chunked, Advance(w, d));
      }
    } else {
      assert input == [stop] + rest;
    }
  }

  /** A read of no bytes: the loop reads again from the same window. */
  lemma ScanSkip(input: seq<ReadResult>, f: seq<byte> -> MatchOutcome, chunked: bool, w: Window)
    requires Valid(w) && ReadsFit(input) && |input| > 0 && input[0] == Data([])
    ensures ReadsFit(input[1..])
    ensures Scan(input, f, chunked, w) == Scan(input[1..], f, chunked, w)
  {
  }

  /** A read the matcher does not match: the loop goes on from the advanced
      window. */
  lemma ScanAdvance(input: seq<ReadResult>, f: seq<byte> -> MatchOutcome, chunked: bool, w: Window)
    requires Valid(w) && ReadsFit(input) && |input| > 0 && input[0].Data? && 0 < |input[0].bytes|
    requires f(Fill(w, input[0].bytes)[..w.pos + |input[0].bytes|]) == NoMatch
    ensures ReadsFit(input[1..]) && |input[0].bytes| <= ReadSize
    ensures Scan(input, f, chunked, w) == Scan(input[1..], f, chunked, Advance(w, input[0].bytes))
  {
  }

  /** A read the matcher matches at `end`: the frame is delivered. */
  lemma ScanMatch(input: seq<ReadResult>, f: seq<byte> -> MatchOutcome, chunked: bool, w: Window, end: nat)
    requires Valid(w) && ReadsFit(input) && |input| > 0 && input[0].Data? && 0 < |input[0].bytes|
    requires f(Fill(w, input[0].bytes)[..w.pos + |input[0].bytes|]) == Found(end)
    ensures |input[0].bytes| <= ReadSize
    ensures Scan(input, f, chunked, w)
         == Deliver(w.out, Fill(w, input[0].bytes), w.pos + |input[0].bytes|, end, chunked, false)
  {
  }

  /** The bytes of the filled buffer shown to the matcher are the window's
      bytes and the read's. */
  lemma FilledHeld(w: Window, d: seq<byte>)
    requires Valid(w) && |d| <= ReadSize
    ensures w.out + Fill(w, d)[..w.pos + |d|] == Held(w) + d
  {
    var b := Fill(w, d);
    PrefixSplit(b, w.pos, w.pos + |d|);
    AppendAssoc(w.out, w.buf[..w.pos], d);
  }

  /** Without chunking, the frame is a prefix of everything received: what
      the loop returns was read, in order, with nothing skipped. */
  lemma {:induction false} FrameIsPrefix(input: seq<ReadResult>, f: seq<byte> -> MatchOutcome, w: Window)
    requires Valid(w) && ReadsFit(input) && Scan(input, f, false, w).Frame?
    ensures Scan(input, f, false, w).bytes <= Held(w) + AllData(input)
    decreases |input|
  {
    var d := input[0].bytes;
    AllDataCons(input);
    AppendAssoc(Held(w), d, AllData(input[1..]));
    if |d| == 0 {
      ScanSkip(input, f, false, w);
      FrameIsPrefix(input[1..], f, w);
      assert Held(w) + d == Held(w);
    } else {
      var b := Fill(w, d);
      var seen := b[..w.pos + |d|];
      match f(seen)
      case NoMatch =>
        ScanAdvance(input, f, false, w);
        FrameIsPrefix(input[1..], f, Advance(w, d));
      case Found(end) =>
        ScanMatch(input, f, false, w, end);
        FilledHeld(w, d);
        PrefixOfLonger(Scan(input, f, false, w).bytes, Held(w) + d, AllData(input[1..]));
      case MatchFailure(_) =>
    }
  }

  /** With `bytes.Index` and no chunking, the frame is followed in the byte
      stream by the separator itself: `Receive` returns exactly what came
      before a separator. */
  lemma {:induction false} SeparatorFollowsFrame(input: seq<ReadResult>, sep: seq<byte>, w: Window)
    requires Valid(w) && ReadsFit(input) && Scan(input, IndexMatcher(sep), false, w).Frame?
    ensures Scan(input, IndexMatcher(sep), false, w).bytes + sep <= Held(w) + AllData(input)
    decreases |input|
  {
    var f := IndexMatcher(sep);
    var d := input[0].bytes;
    AllDataCons(input);
    AppendAssoc(Held(w), d, AllData(input[1..]));
    if |d| == 0 {
      ScanSkip(input, f, false, w);
      SeparatorFollowsFrame(input[1..], sep, w);
      assert Held(w) + d == Held(w);
    } else {
      var b := Fill(w, d);
      var seen := b[..w.pos + |d|];
      var end := Index(seen, sep);
      if end == -1 {
        assert f(seen) == NoMatch;
        ScanAdvance(input, f, false, w);
        SeparatorFollowsFrame(input[1..], sep, Advance(w, d));
      } else {
        assert f(seen) == Found(end);
        ScanMatch(input, f, false, w, end);
        assert Scan(input, f, false, w) == Frame(w.out + seen[..end]);
        MatchFollowedBySeparator(w.out, seen, sep, end);
        FilledHeld(w, d);
        PrefixOfLonger(w.out + seen[..end] + sep, Held(w) + d, AllData(input[1..]));
      }
    }
  }

  /** The bytes before a match of `bytes.Index`, then the separator, are
      where they were. */
  lemma MatchFollowedBySeparator(out: seq<byte>, seen: seq<byte>, sep: seq<byte>, end: int)
    requires end != -1 && end == Index(seen, sep)
    ensures 0 <= end <= |seen| && out + seen[..end] + sep <= out + seen
  {
    assert seen[end..end + |sep|] == sep;
    var lhs := out + seen[..end] + sep;
    assert lhs == (out + seen)[..|lhs|];
  }

  /** When every read brings at most one byte, the matcher is never shown
      more than two bytes: a separator of three or more bytes is never
      found, however the stream goes on. */
  lemma {:induction false} ShortReadsNeverMatch(input: seq<ReadResult>, sep: seq<byte>, chunked: bool, w: Window)
    requires Valid(w) && ReadsFit(input) && w.pos <= 1 && |sep| >= 3
    requires forall k :: 0 <= k < |input| && input[k].Data? ==> |input[k].bytes| <= 1
    ensures !Scan(input, IndexMatcher(sep), chunked, w).Frame?
    decreases |input|
  {
    if |input| > 0 && input[0].Data? {
      var d := input[0].bytes;
      if |d| == 0 {
        ShortReadsNeverMatch(input[1..], sep, chunked, w);
      } else {
        var seen := Fill(w, d)[..w.pos + |d|];
        assert Index(seen, sep) == -1;
        ShortReadsNeverMatch(input[1..], sep, chunked, Advance(w, d));
      }
    }
  }

  /** One read per byte of `s`, then end of stream. */
  function OneByteReads(s: seq<byte>): (r: seq<ReadResult>)
    ensures |r| == |s| + 1 && r[|s|] == Eof
    ensures forall k :: 0 <= k < |s| ==> r[k] == Data([s[k]])
  {
    seq(|s|, k requires 0 <= k < |s| => Data([s[k]])) + [Eof]
  }

  /** Delivered one byte at a time and then closed, any stream ends in the
      "WaitForFunc failed" error, even when it holds a separator. */
  lemma {:induction false} OneByteReadsFail(s: seq<byte>, sep: seq<byte>, chunked: bool, w: Window)
    requires Valid(w) && w.pos <= 1 && |sep| >= 3
    ensures Scan(OneByteReads(s), IndexMatcher(sep), chunked, w) == Failed(Incomplete)
    decreases |s|
  {
    var input := OneByteReads(s);
    assert ReadsFit(input);
    if |s| > 0 {
      var d := [s[0]];
      var seen := Fill(w, d)[..w.pos + 1];
      assert Index(seen, sep) == -1;
      assert input[1..] == OneByteReads(s[1..]);
      OneByteReadsFail(s[1..], sep, chunked, Advance(w, d));
    }
  }

  /** The loop as evidently intended: the matcher is shown every byte held
      so far, `held` plus this read, rather than the last two reads only,
      and chunks are reassembled with the strict bounds check. */
  function ScanAll(input: seq<ReadResult>, f: seq<byte> -> MatchOutcome, chunked: bool, held: seq<byte>): (r: ScanOutcome)
    ensures r.Blocked? ==> forall k :: 0 <= k < |input| ==> input[k].Data?
    ensures r == Failed(Incomplete) ==> Eof in input
    ensures r.Failed? && r.err.ConnectionError? ==> ReadFailure(r.err.cause) in input
    ensures r.Failed? && r.err.ChunkFailure? ==> chunked
    decreases |input|
  {
    if |input| == 0 then Blocked
    else
      match input[0]
      case ReadFailure(cause) => Failed(ConnectionError(cause))
      case Eof => Failed(Incomplete)
      case Data(d) =>
        if |d| == 0 then ScanAll(input[1..], f, chunked, held)
        else
          var seen := held + d;
          match f(seen)
          case MatchFailure(cause) => Failed(MatcherError(cause))
          case Found(end) => Deliver([], seen, |seen|, end, chunked, true)
          case NoMatch => ScanAll(input[1..], f, chunked, seen)
  }

  /** One step of the corrected loop on an empty read. */
  lemma ScanAllSkip(input: seq<ReadResult>, f: seq<byte> -> MatchOutcome, chunked: bool, held: seq<byte>)
    requires |input| > 0 && input[0] == Data([])
    ensures ScanAll(input, f, chunked, held) == ScanAll(input[1..], f, chunked, held)
  {
  }

  /** One step of the corrected loop on a read that brings no match: the
      read joins the held bytes. */
  lemma ScanAllAdvance(input: seq<ReadResult>, f: seq<byte> -> MatchOutcome, chunked: bool, held: seq<byte>)
    requires |input| > 0 && input[0].Data? && |input[0].bytes| > 0
    requires f(held + input[0].bytes) == NoMatch
    ensures ScanAll(input, f, chunked, held) == ScanAll(input[1..], f, chunked, held + input[0].bytes)
  {
  }

  /** One step of the corrected loop on a read that brings a match: the
      held bytes and the read are delivered together. */
  lemma ScanAllMatch(input: seq<ReadResult>, f: seq<byte> -> MatchOutcome, chunked: bool, held: seq<byte>, end: nat)
    requires |input| > 0 && input[0].Data? && |input[0].bytes| > 0
    requires f(held + input[0].bytes) == Found(end)
    ensures ScanAll(input, f, chunked, held)
         == Deliver([], held + input[0].bytes, |held + input[0].bytes|, end, chunked, true)
  {
  }

  /** A read that brings a match whose delivery is the frame `data`: the
      corrected loop returns `data`. */
  lemma ScanAllFound(input: seq<ReadResult>, f: seq<byte> -> MatchOutcome, chunked: bool, held: seq<byte>, end: nat, data: seq<byte>)
    requires |input| > 0 && input[0].Data? && |input[0].bytes| > 0
    requires f(held + input[0].bytes) == Found(end)
    requires Deliver([], held + input[0].bytes, |held + input[0].bytes|, end, chunked, true) == Frame(data)
    ensures ScanAll(input, f, chunked, held) == Frame(data)
  {
    ScanAllMatch(input, f, chunked, held, end);
  }

  /** Without chunking, the corrected loop's frame is a prefix of
      everything received. */
  lemma {:induction false} ScanAllFrameIsPrefix(input: seq<ReadResult>, f: seq<byte> -> MatchOutcome, held: seq<byte>)
    requires ScanAll(input, f, false, held).Frame?
    ensures ScanAll(input, f, false, held).bytes <= held + AllData(input)
    decreases |input|
  {
    var d := input[0].bytes;
    var seen := held + d;
    AllDataCons(input);
    AppendAssoc(held, d, AllData(input[1..]));
    if |d| == 0 {
      assert ScanAll(input, f, false, held) == ScanAll(input[1..], f, false, held);
      ScanAllFrameIsPrefix(input[1..], f, held);
      assert seen == held;
    } else {
      match f(seen)
      case NoMatch =>
        assert ScanAll(input, f, false, held) == ScanAll(input[1..], f, false, seen);
        ScanAllFrameIsPrefix(input[1..], f, seen);
      case Found(end) =>
        assert ScanAll(input, f, false, held) == Deliver([], seen, |seen|, end, false, true);
        assert seen[..|seen|] == seen;
        PrefixOfLonger(ScanAll(input, f, false, held).bytes, seen, AllData(input[1..]));
      case MatchFailure(_) =>
    }
  }
}

=== FILE: transport.dfy ===
/** `TransportBasicIO`: the version switch, `Send` and `Receive`, and what a
    peer gets back from a sent message, for the read loop as written and for
    the loop that keeps every byte. */
module Transport {
  import opened Bytes
  import opened Chunks
  import opened Framing
  import opened Scanner
  import opened ChunkWalk
  import ChunkLemmas

  /** The framing state of a transport; the connection itself is the read
      list handed to `Receive`. */
  datatype Transport = Transport(version: string)

  /** `SetVersion`: only the version changes, and with it both directions'
      framing. */
  function SetVersion(t: Transport, version: string): (r: Transport)
    ensures Separator(r.version) == if version == "v1.1" then EndOfChunks else EndOfMessage
    ensures forall data: seq<byte> {:trigger Encode(r.version, data)} ::
              EndsWith(Encode(r.version, data), Separator(version))
  {
    Transport(version)
  }

  /** `Send(data)`: the one buffer written. For "v1.1" it is a `\n#<len>\n`
      chunk header, the data and `\n##\n`; for any other version, the data
      and `]]>]]>`. */
  function Send(t: Transport, data: seq<byte>): (w: seq<byte>)
    ensures var h := if IsChunked(t.version) then |Decimal(|data|)| + 3 else 0;
            && |w| == h + |data| + |Separator(t.version)|
            && w[h..h + |data|] == data
            && w[h + |data|..] == Separator(t.version)
    ensures IsChunked(t.version) ==> w[..2] == [LF, HASH] && Atoi(w[2..|w| - |data| - 5]) == Some(|data|)
                                     && w[|w| - |data| - 5] == LF
  {
    if IsChunked(t.version) then
      ChunkedShape(data);
      Encode(t.version, data)
    else
      EndOfMessageShape(t.version, data);
      Encode(t.version, data)
  }

  /** What `Receive` returns for the reads `input`: `WaitForBytes` with the
      version's separator. */
  function Received(t: Transport, input: seq<ReadResult>): ScanOutcome
    requires ReadsFit(input)
  {
    Scan(input, IndexMatcher(Separator(t.version)), IsChunked(t.version), Start())
  }

  /** `Receive()`: never reports a matcher overrun, since `bytes.Index` only
      answers occurrences it was shown in full. */
  method Receive(t: Transport, input: seq<ReadResult>) returns (r: ScanOutcome)
    requires ReadsFit(input)
    ensures r == Received(t, input)
    ensures !Overran(r)
  {
    r := WaitForBytes(input, Separator(t.version), IsChunked(t.version));
  }

  /** The payload does not fake the separator: for "v1.1" the terminator
      `\n##\n` appears nowhere from the header's newline to the end of the
      payload plus `\n##`; otherwise `]]>]]>` appears nowhere in the data and
      the data does not end in `]]>`. */
  predicate Delimited(version: string, data: seq<byte>) {
    if IsChunked(version) then !Contains([LF] + data + [LF, HASH, HASH], EndOfChunks)
    else !Contains(data, EndOfMessage) && !EndsWith(data, EndOfMessage[..3])
  }

  /** The first separator in a sent message is the one `Send` appended
      exactly when the data is delimited, under either framing. */
  lemma DelimitedFoundAtEnd(version: string, data: seq<byte>)
    ensures Delimited(version, data)
        <==> Index(Encode(version, data), Separator(version)) == |Encode(version, data)| - |Separator(version)|
  {
    if IsChunked(version) {
      TerminatorFoundAtEnd(data);
    } else {
      SeparatorFoundAtEnd(version, data);
    }
  }

  /** A match at the end of a whole sent message, at the front of the first
      `n` bytes of `b`, delivers what was sent after whatever `out` holds. */
  lemma DeliverEncoded(version: string, data: seq<byte>, out: seq<byte>, b: seq<byte>, n: nat, strict: bool)
    requires n <= |b| && Encode(version, data) <= b[..n]
    ensures Deliver(out, b, n, |Encode(version, data)| - |Separator(version)|, IsChunked(version), strict) == Frame(out + data)
  {
    var msg := Encode(version, data);
    assert msg == b[..|msg|];
    if IsChunked(version) {
      var tail := b[|msg|..];
      assert b == msg + tail;
      DecodeEncoded(data, tail, strict);
    } else {
      EndOfMessageShape(version, data);
      assert b[..|data|] == msg[..|data|];
    }
  }

  /** A sent message completed by the read `d`, with nothing yet moved to
      `out`: the loop as written returns exactly what was sent. */
  lemma {:induction false} CompletedInRead(version: string, data: seq<byte>, w: Window, d: seq<byte>, more: seq<ReadResult>)
    requires Valid(w) && w.out == [] && 0 < |d| <= ReadSize && ReadsFit(more)
    requires Delimited(version, data) && Encode(version, data) <= w.buf[..w.pos] + d
    ensures ReadsFit([Data(d)] + more)
    ensures Scan([Data(d)] + more, IndexMatcher(Separator(version)), IsChunked(version), w) == Frame(data)
  {
    var b := Fill(w, d);
    var n := w.pos + |d|;
    var f, chunked := IndexMatcher(Separator(version)), IsChunked(version);
    var end := |Encode(version, data)| - |Separator(version)|;
    ReadCompletesMessage(version, data, w, d);
    var input := [Data(d)] + more;
    assert input[0] == Data(d);
    ScanMatch(input, f, chunked, w, end);
    assert Scan(input, f, chunked, w) == Deliver([], b, n, end, chunked, false);
    DeliverEncoded(version, data, [], b, n, false);
    assert [] + data == data;
  }

  /** The bytes shown after the read `d` start with the whole message, and
      `bytes.Index` finds its separator. */
  lemma ReadCompletesMessage(version: string, data: seq<byte>, w: Window, d: seq<byte>)
    requires Valid(w) && |d| <= ReadSize
    requires Delimited(version, data) && Encode(version, data) <= w.buf[..w.pos] + d
    ensures Encode(version, data) <= Fill(w, d)[..w.pos + |d|]
    ensures IndexMatcher(Separator(version))(Fill(w, d)[..w.pos + |d|])
         == Found(|Encode(version, data)| - |Separator(version)|)
  {
    var b := Fill(w, d);
    PrefixSplit(b, w.pos, w.pos + |d|);
    MatchAtEnd(version, data, b[..w.pos + |d|]);
  }

  /** Shown bytes that start with a whole sent message, `bytes.Index`
      answers the separator `Send` appended. */
  lemma MatchAtEnd(version: string, data: seq<byte>, seen: seq<byte>)
    requires Delimited(version, data) && Encode(version, data) <= seen
    ensures IndexMatcher(Separator(version))(seen) == Found(|Encode(version, data)| - |Separator(version)|)
  {
    var sep := Separator(version);
    var msg := Encode(version, data);
    DelimitedFoundAtEnd(version, data);
    IndexOfExtension(msg, seen, sep);
    assert IndexMatcher(sep)(seen) == Found(|msg| - |sep|);
  }

  /** A message sent in one piece and read in one read of at most 4096
      bytes, possibly with more bytes after it, is received as sent. */
  lemma ReceiveOneRead(t: Transport, data: seq<byte>, rest: seq<byte>, more: seq<ReadResult>)
    requires Delimited(t.version, data) && |Send(t, data)| + |rest| <= ReadSize && ReadsFit(more)
    ensures ReadsFit([Data(Send(t, data) + rest)] + more)
    ensures Received(t, [Data(Send(t, data) + rest)] + more) == Frame(data)
  {
    var d := Send(t, data) + rest;
    assert Start().buf[..0] + d == d;
    CompletedInRead(t.version, data, Start(), d, more);
  }

  /** A message that arrives in two reads, the first too short to hold it
      all, is received as sent. */
  lemma ReceiveTwoReads(t: Transport, data: seq<byte>, p: seq<byte>, q: seq<byte>, more: seq<ReadResult>)
    requires Delimited(t.version, data) && ReadsFit(more)
    requires 0 < |p| < |Send(t, data)| && 0 < |q| <= ReadSize && |p| <= ReadSize
    requires Send(t, data) <= p + q
    ensures ReadsFit([Data(p), Data(q)] + more)
    ensures Received(t, [Data(p), Data(q)] + more) == Frame(data)
  {
    var version := t.version;
    var w := Start();
    assert Fill(w, p)[..|p|] == p;
    PrefixOfLonger(p, p, q);
    PrefixesAgree(p, Encode(version, data), p + q);
    NoMatchBeforeEnd(version, data, p);
    var input := [Data(p), Data(q)] + more;
    assert input[0] == Data(p) && input[1..] == [Data(q)] + more;
    ScanAdvance(input, IndexMatcher(Separator(version)), IsChunked(version), w);
    var w' := Advance(w, p);
    assert w'.out == [] && w'.buf[..w'.pos] == p;
    CompletedInRead(version, data, w', q, more);
  }

  /** How a receiver finds the end of a message: the `bytes.Index` search
      for the separator that `Receive` does, or the chunk walk. */
  datatype Search = IndexSearch | ChunkSearch

  function Matcher(version: string, m: Search): seq<byte> -> MatchOutcome {
    match m
    case IndexSearch => IndexMatcher(Separator(version))
    case ChunkSearch => ChunkMatcher()
  }

  /** When the search finds a sent message: the separator search needs
      delimited data, the chunk walk only the chunked framing. */
  predicate Finds(version: string, data: seq<byte>, m: Search) {
    match m
    case IndexSearch => Delimited(version, data)
    case ChunkSearch => IsChunked(version)
  }

  /** Shown anything that starts with the whole message, the search answers
      the separator `Send` appended. */
  lemma SearchFinds(version: string, data: seq<byte>, m: Search, s: seq<byte>)
    requires Finds(version, data, m) && Encode(version, data) <= s
    ensures Matcher(version, m)(s) == Found(|Encode(version, data)| - |Separator(version)|)
  {
    match m
    case IndexSearch => MatchAtEnd(version, data, s);
    case ChunkSearch => WalkFindsTerminator(data, s);
  }

  /** Shown a proper prefix of the message, the search waits. */
  lemma SearchWaits(version: string, data: seq<byte>, m: Search, p: seq<byte>)
    requires Finds(version, data, m) && p <= Encode(version, data) && |p| < |Encode(version, data)|
    ensures Matcher(version, m)(p) == NoMatch
  {
    match m
    case IndexSearch => NoMatchBeforeEnd(version, data, p);
    case ChunkSearch => WalkWaitsOnPrefix(data, p);
  }

  /** The corrected loop delivers a sent message however the reads split
      it, with a search that finds the message: `held` is a proper prefix
      of the message, and the remaining reads up to some point bring the
      rest of it. */
  lemma {:induction false} ScanAllDelivers(version: string, data: seq<byte>, m: Search, held: seq<byte>, front: seq<ReadResult>, back: seq<ReadResult>)
    requires Finds(version, data, m)
    requires forall k :: 0 <= k < |front| ==> front[k].Data?
    requires |held| < |Encode(version, data)| && held <= Encode(version, data)
    requires Encode(version, data) <= held + AllData(front)
    ensures ScanAll(front + back, Matcher(version, m), IsChunked(version), held) == Frame(data)
    decreases |front|
  {
    var msg := Encode(version, data);
    var input := front + back;
    var f, chunked := Matcher(version, m), IsChunked(version);
    assert |front| > 0;
    assert input[0] == front[0] && input[1..] == front[1..] + back;
    var d := front[0].bytes;
    AllDataCons(front);
    AppendAssoc(held, d, AllData(front[1..]));
    var seen := held + d;
    if |d| == 0 {
      assert seen == held;
      assert ScanAll(input, f, chunked, held) == ScanAll(input[1..], f, chunked, held) by {
        ScanAllSkip(input, f, chunked, held);
      }
      ScanAllDelivers(version, data, m, held, front[1..], back);
    } else if |seen| < |msg| {
      assert seen <= msg by {
        PrefixOfLonger(seen, seen, AllData(front[1..]));
        PrefixesAgree(seen, msg, seen + AllData(front[1..]));
      }
      assert ScanAll(input, f, chunked, held) == ScanAll(input[1..], f, chunked, seen) by {
        SearchWaits(version, data, m, seen);
        ScanAllAdvance(input, f, chunked, held);
      }
      ScanAllDelivers(version, data, m, seen, front[1..], back);
    } else {
      assert msg <= seen by {
        PrefixOfLonger(seen, seen, AllData(front[1..]));
        PrefixesAgree(msg, seen, seen + AllData(front[1..]));
      }
      ReadCompletes(version, data, m, held, input);
    }
  }

  /** A read that completes the message: the corrected loop delivers it. */
  lemma ReadCompletes(version: string, data: seq<byte>, m: Search, held: seq<byte>, input: seq<ReadResult>)
    requires Finds(version, data, m)
    requires |input| > 0 && input[0].Data? && |input[0].bytes| > 0
    requires Encode(version, data) <= held + input[0].bytes
    ensures ScanAll(input, Matcher(version, m), IsChunked(version), held) == Frame(data)
  {
    var seen := held + input[0].bytes;
    var end := |Encode(version, data)| - |Separator(version)|;
    var f, chunked := Matcher(version, m), IsChunked(version);
    assert f(seen) == Found(end) by {
      SearchFinds(version, data, m, seen);
    }
    assert Deliver([], seen, |seen|, end, chunked, true) == Frame(data) by {
      DeliverSeen(version, data, seen);
    }
    ScanAllFound(input, f, chunked, held, end, data);
  }

  /** Bytes seen that start with a whole sent message are delivered as
      that message's data, with the strict chunk bound. */
  lemma DeliverSeen(version: string, data: seq<byte>, seen: seq<byte>)
    requires Encode(version, data) <= seen
    ensures Deliver([], seen, |seen|, |Encode(version, data)| - |Separator(version)|, IsChunked(version), true) == Frame(data)
  {
    assert seen[..|seen|] == seen;
    DeliverEncoded(version, data, [], seen, |seen|, true);
    assert [] + data == data;
  }

  /** Shown a proper prefix of a sent message, `bytes.Index` finds nothing. */
  lemma NoMatchBeforeEnd(version: string, data: seq<byte>, seen: seq<byte>)
    requires Delimited(version, data) && seen <= Encode(version, data) && |seen| < |Encode(version, data)|
    ensures IndexMatcher(Separator(version))(seen) == NoMatch
  {
    DelimitedFoundAtEnd(version, data);
    IndexOfPrefix(Encode(version, data), seen, Separator(version));
  }

  /** With the corrected loop, a sent message is received as sent whatever
      reads bring it, as long as they bring all of it. */
  lemma ReceiveAllRoundTrip(t: Transport, data: seq<byte>, front: seq<ReadResult>, back: seq<ReadResult>)
    requires Delimited(t.version, data)
    requires forall k :: 0 <= k < |front| ==> front[k].Data?
    requires Send(t, data) <= AllData(front)
    ensures ScanAll(front + back, IndexMatcher(Separator(t.version)), IsChunked(t.version), []) == Frame(data)
  {
    assert [] + AllData(front) == AllData(front);
    ScanAllDelivers(t.version, data, IndexSearch, [], front, back);
  }

  /** With the corrected loop and the chunk walk as matcher, a "v1.1"
      message is received as sent whatever bytes it holds and however the
      reads split it. */
  lemma ReceiveChunkedRoundTrip(data: seq<byte>, front: seq<ReadResult>, back: seq<ReadResult>)
    requires forall k :: 0 <= k < |front| ==> front[k].Data?
    requires Send(Transport("v1.1"), data) <= AllData(front)
    ensures ScanAll(front + back, ChunkMatcher(), true, []) == Frame(data)
  {
    assert [] + AllData(front) == AllData(front);
    ScanAllDelivers("v1.1", data, ChunkSearch, [], front, back);
  }

  /** The bytes of one-byte reads are the stream itself. */
  lemma {:induction false} OneByteData(s: seq<byte>)
    ensures forall k :: 0 <= k < |s| ==> OneByteReads(s)[..|s|][k].Data?
    ensures AllData(OneByteReads(s)[..|s|]) == s
    decreases |s|
  {
    var front := OneByteReads(s)[..|s|];
    if |s| > 0 {
      OneByteData(s[1..]);
      assert front[1..] == OneByteReads(s[1..])[..|s| - 1];
      assert front[0] == Data([s[0]]);
      assert s == [s[0]] + s[1..];
    }
  }

  /** The three reads `\n#3\na`, `b`, `c\n##\n`. */
  const Read1: seq<byte> := [LF, HASH, ZERO + 3, LF, SMALL_A]
  const Read2: seq<byte> := [SMALL_B]
  const Read3: seq<byte> := [SMALL_C, LF, HASH, HASH, LF]

  /** `Send` of `abc` under "v1.1", split over those three reads. */
  function ThreeReads(): (r: seq<ReadResult>)
    ensures ReadsFit(r) && AllData(r) == Send(Transport("v1.1"), [SMALL_A, SMALL_B, SMALL_C])
    ensures forall k :: 0 <= k < |r| ==> r[k].Data?
  {
    var r := [Data(Read1), Data(Read2), Data(Read3)];
    assert Decimal(3) == [ZERO + 3];
    assert r[1..] == [Data(Read2), Data(Read3)] && r[1..][1..] == [Data(Read3)] && r[1..][1..][1..] == [];
    assert AllData([Data(Read3)]) == Read3 + [];
    assert AllData(r[1..]) == Read2 + Read3;
    assert Send(Transport("v1.1"), [SMALL_A, SMALL_B, SMALL_C]) == Read1 + Read2 + Read3;
    r
  }

  /** The first two reads hold no terminator, so the loop reads a third
      time with `Read1` moved to `out` and `Read2` at the front. */
  lemma TwoReadsNoMatch()
    ensures var w := Advance(Advance(Start(), Read1), Read2);
            Received(Transport("v1.1"), ThreeReads()) == Scan([Data(Read3)], IndexMatcher(EndOfChunks), true, w)
  {
    var input := ThreeReads();
    FirstReadNoMatch();
    assert input[1..] == [Data(Read2), Data(Read3)];
    SecondReadNoMatch();
  }

  /** The first read holds no terminator. */
  lemma FirstReadNoMatch()
    ensures Scan(ThreeReads(), IndexMatcher(EndOfChunks), true, Start())
         == Scan(ThreeReads()[1..], IndexMatcher(EndOfChunks), true, Advance(Start(), Read1))
  {
    var f := IndexMatcher(EndOfChunks);
    var input := ThreeReads();
    NoTerminatorEarly();
    assert Fill(Start(), Read1)[..5] == Read1;
    assert f(Read1) == NoMatch;
    assert input[0] == Data(Read1);
    ScanAdvance(input, f, true, Start());
  }

  /** Shown the first two reads together, the matcher finds no terminator
      either. */
  lemma SecondReadNoMatch()
    ensures var w := Advance(Start(), Read1);
            Scan([Data(Read2), Data(Read3)], IndexMatcher(EndOfChunks), true, w)
            == Scan([Data(Read3)], IndexMatcher(EndOfChunks), true, Advance(w, Read2))
  {
    var f := IndexMatcher(EndOfChunks);
    var w2 := Advance(Start(), Read1);
    NoTerminatorEarly();
    assert w2.out == [] && w2.buf[..5] == Read1;
    var b2 := Fill(w2, Read2);
    PrefixSplit(b2, 5, 6);
    assert f(b2[..6]) == NoMatch;
    var input := [Data(Read2), Data(Read3)];
    assert input[0] == Data(Read2) && input[1..] == [Data(Read3)];
    ScanAdvance(input, f, true, w2);
  }

  /** After two unmatched reads, `Read1` is in `out` and `Read2` at the
      front of the buffer. */
  lemma WindowAfterTwo()
    ensures var w := Advance(Advance(Start(), Read1), Read2);
            w.out == Read1 && w.pos == 1 && w.buf[..1] == Read2
  {
    var w2 := Advance(Start(), Read1);
    assert w2.out == [] && w2.buf[..5] == Read1;
  }

  /** Neither the first read nor the first two hold the terminator. */
  lemma NoTerminatorEarly()
    ensures Index(Read1, EndOfChunks) == -1 && Index(Read1 + Read2, EndOfChunks) == -1
  {
    var s := Read1 + Read2;
    forall k | 0 <= k <= |s|
      ensures !OccursAt(s, EndOfChunks, k) && !OccursAt(Read1, EndOfChunks, k)
    {
      if k + 4 <= |s| {
        var hit := s[k..k + 4];
        assert hit[0] == s[k] && hit[1] == s[k + 1] && hit[2] == s[k + 2];
        if k + 4 <= |Read1| {
          assert Read1[k..k + 4] == hit;
        }
      }
    }
  }

  /** What the matcher is shown on the third read. */
  const Shown: seq<byte> := [SMALL_B, SMALL_C, LF, HASH, HASH, LF]

  lemma ShownIsTwoReads()
    ensures Read2 + Read3 == Shown
  {
  }

  lemma ShownTerminator()
    ensures Index(Shown, EndOfChunks) == 2
  {
    assert OccursAt(Shown, EndOfChunks, 2);
    var h0, h1 := Shown[0..4], Shown[1..5];
    assert h0[0] == SMALL_B && h1[0] == SMALL_C;
  }

  /** A buffer starting with `Shown` decodes, up to the terminator, to
      nothing. */
  lemma ShownDecodesEmpty(buf: seq<byte>)
    requires 6 <= |buf| && buf[..6] == Shown
    ensures DecodeFrom(buf, 6, 0, false) == Decoded([], None)
  {
    assert buf[0] == Shown[0] && buf[1] == Shown[1] && buf[2] == Shown[2];
    assert buf[3] == Shown[3] && buf[4] == Shown[4] && buf[5] == Shown[5];
    assert HeaderEnd(buf, 6, 4) == 5;
    ChunkLemmas.TerminatorStops(buf, 6, 2, false);
  }

  /** The third read is matched alone: the terminator at offset 2 ends
      `parseChuncks` before any chunk, and only `out` is returned. */
  lemma ThirdReadAlone()
    ensures var w := Advance(Advance(Start(), Read1), Read2);
            Scan([Data(Read3)], IndexMatcher(EndOfChunks), true, w) == Frame(Read1)
  {
    WindowAfterTwo();
    var w3 := Advance(Advance(Start(), Read1), Read2);
    var f := IndexMatcher(EndOfChunks);
    var b3 := Fill(w3, Read3);
    PrefixSplit(b3, 1, 6);
    ShownIsTwoReads();
    ShownTerminator();
    assert f(b3[..6]) == Found(2);
    assert [Data(Read3)][0] == Data(Read3);
    ScanMatch([Data(Read3)], f, true, w3, 2);
    ShownDecodesEmpty(b3);
    assert Read1 + [] == Read1;
  }

  /** `abc` passes the "v1.1" delimiting condition. */
  lemma AbcDelimited()
    ensures Delimited("v1.1", [SMALL_A, SMALL_B, SMALL_C])
  {
    var inner := [LF, SMALL_A, SMALL_B, SMALL_C, LF, HASH, HASH];
    assert [LF] + [SMALL_A, SMALL_B, SMALL_C] + [LF, HASH, HASH] == inner;
    forall k | 0 <= k <= |inner|
      ensures !OccursAt(inner, EndOfChunks, k)
    {
      if k + 4 <= |inner| {
        var hit := inner[k..k + 4];
        assert hit[0] == inner[k] && hit[1] == inner[k + 1];
        if k == 0 {
          assert hit[1] == SMALL_A;
        }
      }
    }
  }

  /** As written, the third read is matched without the first: the chunk
      header reaches the caller as payload and `bc` is lost. The corrected
      loop returns `abc`. */
  lemma ThreeReadsLoseChunk()
    ensures Received(Transport("v1.1"), ThreeReads()) == Frame([LF, HASH, ZERO + 3, LF, SMALL_A])
    ensures ScanAll(ThreeReads(), IndexMatcher(EndOfChunks), true, []) == Frame([SMALL_A, SMALL_B, SMALL_C])
  {
    TwoReadsNoMatch();
    ThirdReadAlone();
    AbcDelimited();
    var input := ThreeReads();
    ReceiveAllRoundTrip(Transport("v1.1"), [SMALL_A, SMALL_B, SMALL_C], input, []);
    assert input + [] == input;
  }

  /** As written, one-byte reads never let the matcher see a separator: a
      sent message delivered byte by byte and then closed ends in the
      "WaitForFunc failed" error, where the corrected loop returns it. */
  lemma OneByteReadsMissMessage(t: Transport, data: seq<byte>)
    requires Delimited(t.version, data)
    ensures ReadsFit(OneByteReads(Send(t, data)))
    ensures Received(t, OneByteReads(Send(t, data))) == Failed(Incomplete)
    ensures ScanAll(OneByteReads(Send(t, data)), IndexMatcher(Separator(t.version)), IsChunked(t.version), []) == Frame(data)
  {
    var s := Send(t, data);
    var input := OneByteReads(s);
    assert ReadsFit(input);
    OneByteReadsFail(s, Separator(t.version), IsChunked(t.version), Start());
    OneByteData(s);
    assert input == input[..|s|] + input[|s|..];
    ReceiveAllRoundTrip(t, data, input[..|s|], input[|s|..]);
  }

  /** A "v1.1" payload that itself holds `\n##\n`: `\n##\nab`. */
  const Embedded: seq<byte> := [LF, HASH, HASH, LF, SMALL_A, SMALL_B]

  /** `Send` of that payload: `\n#6\n\n##\nab\n##\n`. */
  const EmbeddedSent: seq<byte> := [LF, HASH, ZERO + 6, LF, LF, HASH, HASH, LF, SMALL_A, SMALL_B, LF, HASH, HASH, LF]

  lemma EmbeddedEncoding()
    ensures Send(Transport("v1.1"), Embedded) == EmbeddedSent
  {
    assert Decimal(6) == [ZERO + 6];
  }

  /** The separator search stops at the payload's `\n##\n`, at offset 4. */
  lemma EmbeddedIndex()
    ensures Index(EmbeddedSent, EndOfChunks) == 4
  {
    var s := EmbeddedSent;
    assert OccursAt(s, EndOfChunks, 4);
    forall k | 0 <= k < 4
      ensures !OccursAt(s, EndOfChunks, k)
    {
      var hit := s[k..k + 4];
      assert hit[0] == s[k] && hit[1] == s[k + 1] && hit[2] == s[k + 2];
    }
  }

  /** A frame cut at that offset holds the header `\n#6\n` and no room for
      its six bytes: `parseChuncks` reports `ErrMalformedChunk`, under either
      bounds check. */
  lemma EmbeddedFrameMalformed(buf: seq<byte>, strict: bool)
    requires 8 <= |buf| && buf[..8] == EmbeddedSent[..8]
    ensures DecodeFrom(buf, 8, 0, strict) == Decoded([], Some(Malformed))
  {
    assert buf[0] == EmbeddedSent[0] && buf[1] == EmbeddedSent[1] && buf[2] == EmbeddedSent[2];
    assert buf[3] == EmbeddedSent[3];
    assert HeaderEnd(buf, 8, 2) == 3;
    assert buf[2..3] == Decimal(6);
    AtoiDecimal(6);
    ChunkLemmas.OverlongChunkStops(buf, 8, 0, strict);
  }

  /** The bytes sent in one read, as the loop as written sees them: the
      frame is cut at offset 4 and fails as a malformed chunk. */
  lemma EmbeddedAsWritten()
    ensures ReadsFit([Data(EmbeddedSent)])
    ensures Scan([Data(EmbeddedSent)], IndexMatcher(EndOfChunks), true, Start()) == Failed(ChunkFailure(Malformed))
  {
    EmbeddedFromEmpty(Start());
  }

  /** The same from any window that holds nothing yet. */
  lemma EmbeddedFromEmpty(w: Window)
    requires Valid(w) && w.out == [] && w.pos == 0
    ensures ReadsFit([Data(EmbeddedSent)])
    ensures Scan([Data(EmbeddedSent)], IndexMatcher(EndOfChunks), true, w) == Failed(ChunkFailure(Malformed))
  {
    var b := Fill(w, EmbeddedSent);
    EmbeddedIndex();
    FirstReadMatches(w, EmbeddedSent, IndexMatcher(EndOfChunks), 4);
    assert b[..8] == EmbeddedSent[..8] by {
      assert b[0..14] == EmbeddedSent;
    }
    EmbeddedFrameMalformed(b, false);
  }

  /** A first read into an empty window whose bytes the matcher accepts:
      the loop as written delivers the frame from the filled buffer. */
  lemma FirstReadMatches(w: Window, d: seq<byte>, f: seq<byte> -> MatchOutcome, end: nat)
    requires Valid(w) && w.out == [] && w.pos == 0 && 0 < |d| <= ReadSize
    requires f(d) == Found(end)
    ensures ReadsFit([Data(d)])
    ensures Scan([Data(d)], f, true, w) == Deliver([], Fill(w, d), |d|, end, true, false)
  {
    assert Fill(w, d)[..|d|] == d by {
      assert Fill(w, d)[0..|d|] == d;
    }
    ScanMatch([Data(d)], f, true, w, end);
  }

  /** The corrected loop with the separator search fails the same way. */
  lemma EmbeddedWholeLoop()
    ensures ScanAll([Data(EmbeddedSent)], IndexMatcher(EndOfChunks), true, []) == Failed(ChunkFailure(Malformed))
  {
    var input := [Data(EmbeddedSent)];
    var f := IndexMatcher(EndOfChunks);
    EmbeddedIndex();
    assert [] + EmbeddedSent == EmbeddedSent;
    assert input[0] == Data(EmbeddedSent);
    ScanAllMatch(input, f, true, [], 4);
    EmbeddedFrameMalformed(EmbeddedSent, true);
  }

  /** As written, a "v1.1" message whose payload holds `\n##\n` is cut at
      that terminator and fails as a malformed chunk, even when it arrives in
      one read; keeping every byte in the read loop does not help. With the
      chunk walk as matcher, the corrected loop returns the payload. */
  lemma EmbeddedTerminatorCutsFrame()
    ensures ReadsFit([Data(Send(Transport("v1.1"), Embedded))])
    ensures Received(Transport("v1.1"), [Data(Send(Transport("v1.1"), Embedded))]) == Failed(ChunkFailure(Malformed))
    ensures ScanAll([Data(Send(Transport("v1.1"), Embedded))], IndexMatcher(EndOfChunks), true, [])
         == Failed(ChunkFailure(Malformed))
    ensures ScanAll([Data(Send(Transport("v1.1"), Embedded))], ChunkMatcher(), true, []) == Frame(Embedded)
  {
    EmbeddedEncoding();
    EmbeddedAsWritten();
    EmbeddedWholeLoop();
    var input := [Data(EmbeddedSent)];
    assert AllData(input) == EmbeddedSent + [];
    assert input + [] == input;
    ReceiveChunkedRoundTrip(Embedded, input, []);
  }
}
